=== FILE: README.md ===
# QtPyVCP machine and spindle actions, modelled in Dafny

QtPyVCP binds Qt buttons, check boxes and menu actions to LinuxCNC machine
actions. Each binding is a string such as `estop.toggle`, `home.axis:x` or
`jog.axis:x, pos`. The action modules parse that string and find the action
it names. They connect the widget's signals to the action, keep the widget
enabled only while its action may run, and issue commands to the
controller. This project models that decision layer and proves what it
does:

- `py.dfy` (module `Py`): the Python built-ins the actions rely on, on
  strings. These are `str.partition`, `replace`, `split` with a separator,
  `lower`, `isdigit` and `int()`, and `list.index`. It also gives the
  exceptions an action can raise and the typed binding argument
  (`IntArg`/`StrArg`).
- `controller.dfy` (module `Controller`): the status snapshot the actions
  read (`STAT`) and the commands they send (`CMD`), as values. An action's
  effect is a `Run`: the commands it issued, in order, and the exception it
  ended with, if any.
- `widgets.dfy` (module `Widgets`): the widget as a class with the fields
  the actions set (enabled, checkable, checked, both tips, connected
  handlers). It also holds the `(ok, msg)` verdict of an enable check and
  `OkCheck`, the `.msg` attribute that every `_*_ok` call overwrites.
- `axes.dfy` (module `Axes`): `getAxisLetter` and `getAxisNumber` over the
  table `x y z a b c u v w all`, with Python's negative indexing.
- `jog.dfy` (module `Jog`): `jog.axis`, which picks JOG_STOP, JOG_CONTINUOUS
  or JOG_INCREMENT.
- `machine_actions.dfy` (module `MachineActions`): the E-stop, power, feed
  hold, mode, home and unhome groups, with their enable checks and toggles.
- `spindle_actions.dfy` (module `SpindleActions`): `_spindle_ok`, the speed
  fallback of `getSpeed`, the spindle commands and the brake.
- `binding.dfy` (module `Binding`): `bindWidget`. It covers parsing the
  binding, the action lookup and the handler plan, and what a handler sends
  when its signal fires. It also covers the initial status sync and the
  `Bind` method that applies all of this to a widget.

The documentation of `getAxisNumber` says that `all` gives -1. The code
returns the position of `all` in its table, which is 9. The model follows
the code, and `Axes.AllIsNine` states the mismatch: -1 is `all` as a
letter, but `all` is 9 as a number.

## Model

| member | source | states |
|---|---|---|
| `Py.Partition` | QtPyVCP/actions/machine_actions.py:52 | The head never contains the separator. The found flag holds exactly when the separator occurs. When it does, head + separator + tail is the input; otherwise the head is the whole input and the tail is empty. |
| `Py.PartitionAt` | QtPyVCP/actions/machine_actions.py:52 | A string cut at the first occurrence of the separator partitions into exactly that head and tail. |
| `Py.Replace` | QtPyVCP/actions/machine_actions.py:53 | Same length; every occurrence of the old character becomes the new one and every other character is kept; afterwards the old character is gone. |
| `Py.RemoveAll` | QtPyVCP/actions/machine_actions.py:68 | The removed character no longer occurs, and the length drops by its number of occurrences. |
| `Py.RemoveAllAppend` | QtPyVCP/actions/machine_actions.py:68 | Removing from a concatenation removes from each part and keeps the parts in order. |
| `Py.RemoveAllChar` | QtPyVCP/actions/machine_actions.py:68 | A single character is dropped exactly when it is the removed one. With `Py.RemoveAllAppend` this fixes the result: every other character is kept, in order. |
| `Py.Split` | QtPyVCP/actions/machine_actions.py:68 | Splitting gives one piece more than there are separators, and no piece contains the separator. |
| `Py.JoinSplit` | QtPyVCP/actions/machine_actions.py:54 | Joining the pieces of a split with the separator gives back the original string. |
| `Py.Lower` | QtPyVCP/actions/machine_actions.py:419 | Same length, each character lower-cased on its own. |
| `Py.LowerOfLower` | QtPyVCP/actions/machine_actions.py:419 | Lower-casing leaves no upper-case letter and is idempotent. |
| `Py.DecimalRoundTrip` | QtPyVCP/actions/machine_actions.py:70 | The decimal text of a natural number is all digits, and `int()` of it gives the number back. |
| `Py.IndexOf` | QtPyVCP/actions/machine_actions.py:431 | `list.index` finds a value exactly when it is in the list, and then returns its first position. |
| `Axes.GetAxisLetter` | QtPyVCP/actions/machine_actions.py:408-419 | A letter comes back lower-cased. A number succeeds exactly when it is in -10..9 and otherwise raises IndexError. A number's result is a table entry. |
| `Axes.GetAxisNumber` | QtPyVCP/actions/machine_actions.py:421-432 | A number passes through unchecked. A letter succeeds exactly when its lower case is in the table, giving that entry's position, and otherwise raises ValueError. |
| `Axes.NumberOfName` | QtPyVCP/actions/machine_actions.py:431 | Looking up a table entry by letter gives its own position. |
| `Axes.NumberRoundTrip` | QtPyVCP/actions/machine_actions.py:408-432 | number to letter to number: 0..9 come back unchanged, and -10..-1 come back as the same entry's non-negative position. |
| `Axes.LetterRoundTrip` | QtPyVCP/actions/machine_actions.py:408-432 | letter to number to letter: every table letter, in any case, comes back lower-cased. |
| `Axes.NumberIgnoresCase` | QtPyVCP/actions/machine_actions.py:430-431 | Letter lookup does not depend on case. |
| `Axes.AllIsNine` | QtPyVCP/actions/machine_actions.py:415-432 | -1 is `all`, but `all` is 9, not the documented -1, so -1 does not round-trip. |
| `Axes.UpperCaseLetters` | QtPyVCP/actions/machine_actions.py:431 | `X`, `W` and `ALL` are found as 0, 8 and 9. |
| `Jog.DirectionValue` | QtPyVCP/actions/machine_actions.py:447-448 | A number is used as is. A word gives 1 exactly for `pos`, -1 exactly for `neg` and 0 for anything else, in any case. |
| `Jog.DirectionWords` | QtPyVCP/actions/machine_actions.py:447-448 | `POS`/`Neg` are directions; the texts `-1` and `+1` mean no direction. |
| `Jog.DefaultJogSpeed` | QtPyVCP/actions/machine_actions.py:457-461 | Axes 3, 4 and 5 use the angular default and the others the linear one, each divided by 60. |
| `Jog.JogAxis` | QtPyVCP/actions/machine_actions.py:447-471 | An unknown axis raises ValueError. A zero speed or direction stops the resolved axis, whatever the distance, and a stop happens only then. Otherwise the velocity is the effective speed times the direction. The jog is continuous exactly when the effective distance is 0, and an increment carries that distance. A resolved axis always gives a command unless the speed or distance is text; the only errors are ValueError and the text case. |
| `Jog.VelocityFollowsDirection` | QtPyVCP/actions/machine_actions.py:466 | With a positive speed the velocity has the sign of the direction. |
| `Jog.ZeroSpeedStops` | QtPyVCP/actions/machine_actions.py:452-453 | Speed 0 always gives JOG_STOP for the resolved axis, whatever the direction and distance. |
| `Jog.DefaultSpeedByAxisKind` | QtPyVCP/actions/machine_actions.py:457-466 | With no speed given, a moving jog uses the angular default for a rotary axis and the linear default otherwise. |
| `MachineActions.EstopIsActivated` | QtPyVCP/actions/machine_actions.py:147-154 | Defined as the status snapshot's E-stop flag. The toggles and the E-stop check read it. |
| `MachineActions.PowerIsOn` | QtPyVCP/actions/machine_actions.py:193-200 | Defined as: the task state is ON. `PowerToggle`, the home check and the spindle check read it. |
| `MachineActions.EstopToggle` | QtPyVCP/actions/machine_actions.py:140-145 | Issues ESTOP_RESET exactly when the E-stop is active, and ESTOP exactly when it is not. |
| `MachineActions.PowerToggle` | QtPyVCP/actions/machine_actions.py:186-191 | Issues OFF exactly when the machine is on, and ON exactly when it is not. |
| `MachineActions.FeedholdToggle` | QtPyVCP/actions/machine_actions.py:246-252 | Sets the feed hold exactly when it is not enabled. |
| `MachineActions.TogglesFlip` | QtPyVCP/actions/machine_actions.py:140-252 | Each toggle's command sets the opposite of the state it reads. |
| `MachineActions.EstopVerdict` | QtPyVCP/actions/machine_actions.py:156-159 | The E-stop check always passes with an empty message. |
| `MachineActions.PowerVerdict` | QtPyVCP/actions/machine_actions.py:202-208 | Passes exactly in ESTOP_RESET, otherwise refuses with "Can't turn machine ON until out of E-Stop"; ok exactly when the message is empty. |
| `MachineActions.ModeVerdict` | QtPyVCP/actions/machine_actions.py:271-274 | The mode check always passes with an empty message. |
| `MachineActions.HomeVerdict` | QtPyVCP/actions/machine_actions.py:342-348 | Passes exactly when the machine is on, whatever the joint, otherwise refuses with "Machine must be on to home"; ok exactly when the message is empty. |
| `MachineActions.PowerAndHomeExclusive` | QtPyVCP/actions/machine_actions.py:202-348 | The power check and the home check never pass together. |
| `MachineActions.EstopOk` | QtPyVCP/actions/machine_actions.py:156-159 | Records the empty message, returns true, and leaves the widget alone. |
| `MachineActions.PowerOk` | QtPyVCP/actions/machine_actions.py:202-217 | Returns the power verdict and records its message. A given widget ends enabled exactly when ok, with both tips showing the message, and nothing else about it changes. |
| `MachineActions.ModeOk` | QtPyVCP/actions/machine_actions.py:271-283 | The same for the mode check. |
| `MachineActions.HomeOk` | QtPyVCP/actions/machine_actions.py:342-357 | The same for the home check. |
| `MachineActions.HomeJointCommands` | QtPyVCP/actions/machine_actions.py:396-399 | Homing a joint switches to manual mode, leaves teleop, then homes that joint. |
| `MachineActions.HomeAxis` | QtPyVCP/actions/machine_actions.py:318-330 | A bad axis number raises IndexError, and `all` homes joint -1. Any other letter, however it is given, homes the joint at its first position in the coordinates, and raises ValueError exactly when the letter is not among them. Nothing is issued when an exception is raised. |
| `MachineActions.LetterIsLower` | QtPyVCP/actions/machine_actions.py:419 | The letter of any axis is already lower case. |
| `MachineActions.HomeAxisAll` | QtPyVCP/actions/machine_actions.py:324-327 | Axis -1 and the letter `ALL` both home all joints. |
| `MachineActions.HomeAxisLetter` | QtPyVCP/actions/machine_actions.py:324-330 | A configured letter, in any case, homes the joint at its first position among the coordinates. |
| `MachineActions.PlainCommands` | QtPyVCP/actions/machine_actions.py:125-394 | The commands of each action that takes no argument. The toggles issue their toggle's command, `home.all` homes joint -1, and the queries and `unhome.all` issue nothing. |
| `MachineActions.ToggleChoosesAction` | QtPyVCP/actions/machine_actions.py:140-252 | A toggle issues exactly what the action it picks would issue. |
| `SpindleActions.SpindleVerdict` | QtPyVCP/actions/spindle_actions.py:43-54 | Passes exactly when the machine is on and not in auto mode. "Can't run spindle until machine it ON" whenever it is not on, which takes priority; "Machine must be in Manuel mode" when on in auto; ok exactly when the message is empty. |
| `SpindleActions.SpindleVerdictReadsStateAndMode` | QtPyVCP/actions/spindle_actions.py:43-53 | The check depends on the task state and mode only. |
| `SpindleActions.SpindleOk` | QtPyVCP/actions/spindle_actions.py:43-61 | Returns the verdict and records its message. A given widget ends enabled exactly when ok, with both tips showing the message, and nothing else changes. |
| `SpindleActions.RawSpeed` | QtPyVCP/actions/spindle_actions.py:113-115 | The commanded speed unless it is 0, in which case the default speed's magnitude, never negative. |
| `SpindleActions.GetSpeed` | QtPyVCP/actions/spindle_actions.py:112-128 | The commanded speed, or the default's magnitude when the commanded speed is 0, times the override factor. |
| `SpindleActions.DefaultSpeedNonNegative` | QtPyVCP/actions/spindle_actions.py:113-122 | With the fallback in use and a non-negative override, the speed is non-negative. |
| `SpindleActions.SpeedNotClamped` | QtPyVCP/actions/spindle_actions.py:122-128 | At 100 % override any commanded speed is used as is; nothing clamps it. |
| `SpindleActions.SpindleCommand` | QtPyVCP/actions/spindle_actions.py:67-107 | Forward and reverse send their direction with the given speed, or `getSpeed()` when none is given. Off, faster, slower and constant send SPINDLE_OFF, SPINDLE_INCREASE, SPINDLE_DECREASE and SPINDLE_CONSTANT, each exactly for that action, with no speed. |
| `SpindleActions.ForwardReverseSymmetric` | QtPyVCP/actions/spindle_actions.py:67-80 | Forward and reverse use the same speed. |
| `SpindleActions.BrakeIsOn` | QtPyVCP/actions/spindle_actions.py:161-163 | Defined as: the status snapshot's spindle brake is ENGAGE. `BrakeToggle` and `BrakeToggleFlips` are stated in terms of it. |
| `SpindleActions.BrakeCommand` | QtPyVCP/actions/spindle_actions.py:147-152 | `brake.on` engages and `brake.off` releases. |
| `SpindleActions.BrakeToggleAsWritten` | QtPyVCP/actions/spindle_actions.py:155-159 | As written, the toggle raises AttributeError for `it_on` and issues nothing, whatever the status; `BrakeToggleAsWrittenRaises` states it. |
| `SpindleActions.BrakeToggleAsWrittenRaises` | QtPyVCP/actions/spindle_actions.py:155-159 | As written, the brake toggle raises AttributeError for `it_on` and issues nothing. |
| `SpindleActions.BrakeToggle` | QtPyVCP/actions/spindle_actions.py:155-163 | As intended, the toggle issues one brake command, and it engages exactly when the brake is not on (`is_on`: the brake is engaged). |
| `SpindleActions.BrakeToggleFlips` | QtPyVCP/actions/spindle_actions.py:155-163 | Applying the toggle's command flips whether the brake is on. |
| `Widgets.Widget.Show` | QtPyVCP/actions/machine_actions.py:212-215 | enabled, status tip and tool tip are set from the verdict; nothing else changes. |
| `Widgets.Widget.MakeCheckable` | QtPyVCP/actions/machine_actions.py:80-81 | The widget becomes checkable; nothing else changes. |
| `Widgets.Widget.SetChecked` | QtPyVCP/actions/machine_actions.py:92 | The checked state is set; nothing else changes. |
| `Widgets.Widget.Connect` | QtPyVCP/actions/machine_actions.py:63-78 | The handler is appended to those already connected; nothing else changes. |
| `Widgets.OkCheck.Report` | QtPyVCP/actions/machine_actions.py:210-217 | Records the message and returns ok. A given widget ends enabled exactly when ok, with both tips showing the message. |
| `Binding.ParseArg` | QtPyVCP/actions/machine_actions.py:70 | An argument is an int exactly when it is non-empty and all digits, with that value; otherwise it keeps its text. |
| `Binding.ParseArgs` | QtPyVCP/actions/machine_actions.py:68-70 | One argument per piece of the space-free text split at commas, each parsed on its own. |
| `Binding.ParseBinding` | QtPyVCP/actions/machine_actions.py:52-70 | The name has no `:` and no `-`, and the path is the name split at dots. |
| `Binding.ParseAtFirstColon` | QtPyVCP/actions/machine_actions.py:52-64 | The name is the text before the first `:` with `-` turned into `_`. The arguments are parsed from everything after it, and there are none when that is empty. |
| `Binding.ParseWithoutColon` | QtPyVCP/actions/machine_actions.py:52-64 | Without a `:` the whole string is the name and there are no arguments. |
| `Binding.ArgsShape` | QtPyVCP/actions/machine_actions.py:66-70 | A non-empty argument text gives one argument per comma plus one (spaces removed first). Each is an int exactly when its piece is all digits, and a text argument has no spaces and no commas. |
| `Binding.IntArgRoundTrip` | QtPyVCP/actions/machine_actions.py:70 | A number written in a binding is read back as that int. |
| `Binding.SignedArgsStayText` | QtPyVCP/actions/machine_actions.py:70 | `-1`, `+1` and the empty argument stay text. |
| `Binding.GroupAction` | QtPyVCP/actions/machine_actions.py:125-471 | The action groups and their methods. Only `jog.axis` is the jog action, and no other group name starts with `j`. |
| `Binding.Lookup` | QtPyVCP/actions/machine_actions.py:54 | A path finds an action exactly when it is a group and one of that group's methods; otherwise it raises AttributeError. |
| `Binding.JogPathIsJogAxis` | QtPyVCP/actions/machine_actions.py:72 | A binding name that starts with `jog` and finds an action finds `jog.axis`. |
| `Binding.IsToggle` | QtPyVCP/actions/machine_actions.py:80 | Defined as: the action name ends with `toggle`. `PlanBinding` makes the widget checkable exactly then. |
| `Binding.IsJog` | QtPyVCP/actions/machine_actions.py:72 | Defined as: the action name starts with `jog`. With arguments, `PlanBinding` gives press and release handlers exactly then. |
| `Binding.PlanBinding` | QtPyVCP/actions/machine_actions.py:52-81 | A plan exists exactly when the path finds an action, except that a menu action (which has no `pressed` signal) bound to a jog with arguments raises AttributeError. A failed lookup passes its AttributeError on. The widget becomes checkable exactly for a name ending in `toggle`. Every handler calls the parsed path with the binding's parsed arguments. There are one or two handlers, and two exactly for a jog binding with arguments: the first fires on `pressed` without `speed=0`, the second on `released` with it. A single handler fires on `triggered` for a menu action and on `clicked` otherwise, without `speed=0`. |
| `Binding.JogCallAsWritten` | QtPyVCP/actions/machine_actions.py:72-74 | The jog call raises TypeError with no axis, with more than four arguments, and, for a release, whenever the binding already gives a speed. |
| `Binding.ReleaseWithSpeedRaises` | QtPyVCP/actions/machine_actions.py:72-74 | For `jog.axis:x,pos,10` the press starts a moving jog, but the release raises TypeError and never stops it. |
| `Binding.JogCall` | QtPyVCP/actions/machine_actions.py:72-74 | As intended: a press calls `jog.axis` with the bound arguments, and a release stops the axis of the first argument whatever the others are. |
| `Binding.Call` | QtPyVCP/actions/machine_actions.py:63-78 | As intended for the jog release (see ## Findings, row 1); otherwise as written. Calls the action with its bound arguments. `speed=0` for any action but `jog.axis` raises TypeError. So does any argument for a no-argument action, which otherwise issues its commands, and any count but one for `home.*` and `unhome.*` with an argument. `home.axis` homes as above. `home.joint` homes a joint number, and for text it switches mode and teleop and then raises TypeError. `unhome.axis` and `unhome.joint` issue nothing. `jog.axis` jogs through the corrected jog call, which agrees with the call as written except for a release whose binding gives a speed. |
| `Binding.Fire` | QtPyVCP/actions/machine_actions.py:54-78 | A connected handler looks up its path and calls the action with its arguments. A failed lookup raises AttributeError and issues nothing. A `speed=0` handler of any action but `jog.axis` raises and issues nothing. |
| `Binding.ReleasedSlotIsJog` | QtPyVCP/actions/machine_actions.py:72-74 | A planned release handler passes `speed=0`, calls `jog.axis`, and carries the binding's own (non-empty) arguments. |
| `Binding.JogReleaseStops` | QtPyVCP/actions/machine_actions.py:74 | As intended: `jog.axis(*args, speed=0)` issues exactly one JOG_STOP for its first argument's axis, which then resolves, or raises having issued nothing; with one to four arguments and a known axis it never raises. |
| `Binding.ReleaseAlwaysStops` | QtPyVCP/actions/machine_actions.py:72-74 | As intended: releasing any bound jog button calls `jog.axis` with the binding's own arguments and issues exactly one JOG_STOP for the first argument's axis, or raises having issued nothing. |
| `Binding.ReleaseNeverRaises` | QtPyVCP/actions/machine_actions.py:72-74 | As intended: a release never raises when the binding gives at most four arguments and the first names a known axis, whatever speed the binding gave. As written, `jog.axis:x,pos,10` is such a binding and its release raises TypeError (`Binding.ReleaseWithSpeedRaises`). |
| `Binding.ParseExample` | QtPyVCP/actions/machine_actions.py:52-70 | `jog.axis:x,pos,10` parses to path jog/axis with arguments "x", "pos", 10. |
| `Binding.ModeOfName` | QtPyVCP/actions/machine_actions.py:93-102 | A mode binding name selects the mode whose binding name it is. |
| `Binding.ModeNameRoundTrip` | QtPyVCP/actions/machine_actions.py:93-102 | Every mode is found again from its binding name. |
| `Binding.InitialSyncAsWritten` | QtPyVCP/actions/machine_actions.py:83-120 | As written, binding raises exactly for power bindings and `home.*` bindings, and elsewhere agrees with the intended sync. The error is NameError exactly for `home.axis` without arguments, and AttributeError for `ok` otherwise. |
| `Binding.InitialSync` | QtPyVCP/actions/machine_actions.py:83-120 | As intended, nothing raises. A mode widget is checked exactly when its mode is current. A power widget is enabled exactly in ESTOP_RESET and a home widget exactly when on, with consistent messages. E-stop bindings are only subscribed. Jog bindings, and any other binding not listed, get no initial sync. |
| `Binding.ModeWidgetsShowMode` | QtPyVCP/actions/machine_actions.py:93-102 | Of the three mode widgets, exactly the one for the current mode is checked. |
| `Binding.PowerBindingRaises` | QtPyVCP/actions/machine_actions.py:86-88 | Binding a power action raises AttributeError (`power.ok`), where the power check was intended. |
| `Binding.HomeBindingRaises` | QtPyVCP/actions/machine_actions.py:103-117 | Binding `home.all`, `home.joint` or `home.axis` raises AttributeError (`home.ok`), or NameError for `home.axis` without arguments. The home check was intended. |
| `Binding.Bind` | QtPyVCP/actions/machine_actions.py:42-120 | An unknown action, or a menu action bound to a jog with arguments, raises AttributeError and leaves widget and check untouched. Otherwise the planned handlers are appended in order, a toggle makes the widget checkable, and the intended sync sets the checked state or runs the enable check. Everything else is unchanged. |

## Findings

| source | as written | input that shows it | evidently intended | confidence | as-written member | corrected member |
|---|---|---|---|---|---|---|
| QtPyVCP/actions/machine_actions.py:74 | the release handler calls `method(*args, speed=0)` even when the bound arguments already give the speed positionally | `jog.axis:x,pos,10`: press jogs axis 0; release raises TypeError (multiple values for `speed`), so the jog is never stopped | the release stops the axis whatever speed the binding gave | not executed; high | `Binding.JogCallAsWritten`, `Binding.ReleaseWithSpeedRaises` | `Binding.JogCall`, `Binding.ReleaseAlwaysStops`, `Binding.ReleaseNeverRaises` |
| QtPyVCP/actions/machine_actions.py:86-117 | `power.ok(widget)` and `home.ok(joint, widget)`, but the groups define no `ok`; the `.ok` attributes are set on the methods (`power.on.ok`, `home.all.ok`). The `home.ok` calls also pass the joint first and the widget second, while `_home_ok(widget=None, jnum=-1)` (line 342) takes them the other way round, so even with `ok` defined `_home_ok(-1, widget)` would call `setEnabled` on the number -1 at line 353 and raise AttributeError | binding any `power.*` action, `home.all`, `home.joint:0` or `home.axis:x` raises AttributeError right after the handlers are connected (`home.axis` with no arguments raises NameError for `arg` first) | run the power or home check on the widget, passing the widget as `widget` | not executed; high | `Binding.InitialSyncAsWritten`, `Binding.PowerBindingRaises`, `Binding.HomeBindingRaises` | `Binding.InitialSync`, `Binding.Bind` |
| QtPyVCP/actions/spindle_actions.py:155-159 | `brake.toggle` asks `brake.it_on()`, which does not exist | any call of `brake.toggle` raises AttributeError and issues nothing | ask `brake.is_on()` and flip the brake | not executed; high | `SpindleActions.BrakeToggleAsWritten`, `SpindleActions.BrakeToggleAsWrittenRaises` | `SpindleActions.BrakeToggle`, `SpindleActions.BrakeToggleFlips` |

## Left out

- The controller (`linuxcnc.command`, `STAT`) is a native library. Its calls become `Command` values, and only the status fields the decisions read are modelled. `setTaskMode` of the base action module is not part of this model; it appears as the command `SetTaskMode`.
- Qt signal plumbing is not modelled: the `STATUS.*.connect` subscriptions that later resync a widget, the Qt signal objects themselves, and the `checked` argument Qt may pass to a handler. A connected handler is a `Slot` value, and `Binding.Fire` says what it does when it fires, with the jog release corrected as in ## Findings, row 1. Because `checked` is left out, a bare `home.axis`, `home.joint` or `jog.axis` binding gets TypeError from `Binding.Fire`. Qt passes `checked` (False) to a handler connected without arguments that accepts one, so in the program such a binding would home axis x, home joint 0, or stop axis 0.
- Qt ignores `setChecked` on a widget that is not checkable. `Widgets.Widget.SetChecked` records the value regardless.
- The `reduce(getattr, ...)` reflection is replaced by the finite table of action methods, `Binding.GroupAction`. Module-level names that are not actions, and paths of other lengths, are treated as not found.
- The `_*_bindOk` functions are never called by `bindWidget`, and are not modelled. The same holds for `_spindle_bindOk`.
- Logging and `print` are not modelled.
- Floating-point rounding is not modelled: speeds, distances and velocities are exact reals. Under Python 2, a jog velocity setting held as an int would divide by 60 as an int; that is not modelled either.
- Jog.JogAxis: a speed given as text (what a binding produces for `1.5`) would go through `float()` (QtPyVCP/actions/machine_actions.py, line 466). A text distance is not converted: it differs from 0 at line 468 and reaches `CMD.jog` as is at line 471. Both cases end in the `NotModelled` error instead.
- Binding.Lookup: the AttributeError carries the whole dotted path. Python's `getattr` names only the first component it cannot find, such as `foo` in `estop.foo`; that payload is not modelled.
- Binding.JogCall: the same `NotModelled` case applies to text arguments.
- Binding.Call: its `jog.axis` branch is the corrected release of ## Findings, row 1, so a release of a binding that gives a speed stops the axis where the code as written raises TypeError. `Binding.JogCallAsWritten` keeps the behaviour as written, and `Binding.Fire` inherits the correction.
- Bound integer arguments are unbounded naturals. Python 2's split between `int` and `long` is not modelled: `int(arg)` gives a `long` above `sys.maxint`, which `isinstance(axis, int)` rejects (QtPyVCP/actions/machine_actions.py, line 417), so `home.axis:99999999999999999999` raises AttributeError from `axis.lower()` where `Axes.GetAxisLetter` gives IndexError; `getAxisNumber` passes such a `long` on unchanged.
- `str.isdigit` and `str.lower` are modelled on ASCII. Other Unicode digits and letters are not, nor is `str()` of a Unicode argument.
- The `override` group of the spindle module lacks `@staticmethod`, so none of its methods can be called through the class. It is not modelled.
- `feedhold` is marked as not working in the source. Its commands are modelled as written.
- The `unhome` methods do nothing and are modelled as issuing nothing. `_unhome_joint` is never called and is not modelled.
- Binding.InitialSync: for `home.joint` and `home.axis` the intended sync runs the home check with joint -1. The check's verdict does not depend on the joint.
- Binding.InitialSyncAsWritten: for `home.axis` with arguments, the lookup in `INFO.AXIS_LETTER_LIST` comes before `home.ok` and may raise first. `Info` is not part of this model, so the model gives the AttributeError of `home.ok`.
- `qtpyvcp/widgets/containers/frame.py` is a Qt frame subclass with no logic, and is not modelled.

=== FILE: axes.dfy ===
/** Axis identifiers: `getAxisLetter` and `getAxisNumber` over the fixed table
    x y z a b c u v w all, with Python's negative list indexing. */
module Axes {
  import opened Py

  const AxisNames: seq<string> := ["x", "y", "z", "a", "b", "c", "u", "v", "w", "all"]

  /** An axis given either way a caller may give it. */
  datatype AxisRef = ByLetter(letter: string) | ByNumber(number: int)

  /** `getAxisLetter`: a number indexes the table (negative numbers count from
      the end, anything outside -10..9 raises IndexError); a letter is
      lower-cased and otherwise passed through unchecked. */
  function GetAxisLetter(axis: AxisRef): (r: Result<string>)
    ensures axis.ByLetter? ==> r == Ok(Lower(axis.letter))
    ensures axis.ByNumber? ==> (r.Ok? <==> -|AxisNames| <= axis.number < |AxisNames|)
    ensures r.Err? ==> r.error == IndexError
    ensures axis.ByNumber? && r.Ok? ==> r.value in AxisNames
  {
    match axis
    case ByLetter(s) => Ok(Lower(s))
    case ByNumber(n) =>
      if 0 <= n < |AxisNames| then Ok(AxisNames[n])
      else if -|AxisNames| <= n < 0 then Ok(AxisNames[n + |AxisNames|])
      else Err(IndexError)
  }

  /** `getAxisNumber`: a letter is looked up, case-insensitively, in the
      table (ValueError when absent); a number is passed through unchecked. */
  function GetAxisNumber(axis: AxisRef): (r: Result<int>)
    ensures axis.ByNumber? ==> r == Ok(axis.number)
    ensures axis.ByLetter? ==> (r.Ok? <==> Lower(axis.letter) in AxisNames)
    ensures axis.ByLetter? && r.Ok? ==> 0 <= r.value < |AxisNames| && AxisNames[r.value] == Lower(axis.letter)
    ensures r.Err? ==> r.error == ValueError
  {
    match axis
    case ByNumber(n) => Ok(n)
    case ByLetter(s) =>
      match IndexOf(AxisNames, Lower(s))
      case Some(i) => Ok(i)
      case None => Err(ValueError)
  }

  lemma {:induction false} AxisNamesDistinct()
    ensures forall i, j :: 0 <= i < j < |AxisNames| ==> AxisNames[i] != AxisNames[j]
  {
    forall i, j | 0 <= i < j < |AxisNames|
      ensures AxisNames[i] != AxisNames[j]
    {
      assert |AxisNames[i]| != |AxisNames[j]| || AxisNames[i][0] != AxisNames[j][0];
    }
  }

  lemma {:induction false} AxisNamesLower()
    ensures forall i :: 0 <= i < |AxisNames| ==> Lower(AxisNames[i]) == AxisNames[i]
  {
    forall i | 0 <= i < |AxisNames|
      ensures Lower(AxisNames[i]) == AxisNames[i]
    {
      LowerUnchanged(AxisNames[i]);
    }
  }

  /** Looking a table entry up by letter gives its own position. */
  lemma {:induction false} NumberOfName(i: nat)
    requires i < |AxisNames|
    ensures GetAxisNumber(ByLetter(AxisNames[i])) == Ok(i)
  {
    AxisNamesLower();
    AxisNamesDistinct();
  }

  /** number -> letter -> number: every number the table accepts comes back
      as its non-negative position, so 0..9 round-trip exactly and a negative
      number comes back shifted by 10. */
  lemma {:induction false} NumberRoundTrip(n: int)
    requires -|AxisNames| <= n < |AxisNames|
    ensures GetAxisLetter(ByNumber(n)).Ok?
    ensures GetAxisNumber(ByLetter(GetAxisLetter(ByNumber(n)).value)) == Ok(if n < 0 then n + |AxisNames| else n)
  {
    NumberOfName(if n < 0 then n + |AxisNames| else n);
  }

  /** letter -> number -> letter: every letter of the table, in any case,
      comes back lower-cased. */
  lemma {:induction false} LetterRoundTrip(s: string)
    requires Lower(s) in AxisNames
    ensures GetAxisNumber(ByLetter(s)).Ok?
    ensures GetAxisLetter(ByNumber(GetAxisNumber(ByLetter(s)).value)) == Ok(Lower(s))
  {
  }

  /** Letter lookup ignores case. */
  lemma {:induction false} NumberIgnoresCase(s: string)
    ensures GetAxisNumber(ByLetter(s)) == GetAxisNumber(ByLetter(Lower(s)))
  {
    LowerOfLower(s);
  }

  /** `getAxisLetter(-1)` is `all`, but `getAxisNumber("all")` is 9, not the
      -1 that its documentation promises; so -1 does not round-trip. */
  lemma AllIsNine()
    ensures GetAxisLetter(ByNumber(-1)) == Ok("all")
    ensures GetAxisNumber(ByLetter("all")) == Ok(9)
    ensures GetAxisNumber(ByLetter(GetAxisLetter(ByNumber(-1)).value)) != Ok(-1)
  {
    NumberOfName(9);
  }

  lemma UpperCaseLetters()
    ensures GetAxisNumber(ByLetter("X")) == Ok(0)
    ensures GetAxisNumber(ByLetter("W")) == Ok(8)
    ensures GetAxisNumber(ByLetter("ALL")) == Ok(9)
  {
    assert Lower("X") == AxisNames[0];
    assert Lower("W") == AxisNames[8];
    assert Lower("ALL") == AxisNames[9];
    NumberOfName(0);
    NumberOfName(8);
    NumberOfName(9);
  }
}

=== FILE: binding.dfy ===
/** `bindWidget(widget, action)`: parsing the binding string
    `group.name:arg1, arg2`, finding the action it names, the handlers it
    connects, and what those handlers send to the controller. */
module Binding {
  import opened Py
  import opened Controller
  import opened Widgets
  import opened Axes
  import opened Jog
  import opened MachineActions

  // ---------------------------------------------------------------------
  // Parsing the binding string
  // ---------------------------------------------------------------------

  /** `int(arg) if arg.isdigit() else str(arg)`. */
  function ParseArg(piece: string): (a: Arg)
    ensures a.IntArg? <==> IsDigits(piece)
    ensures a.IntArg? ==> a.n == DigitsValue(piece)
    ensures a.StrArg? ==> a.text == piece
  {
    if IsDigits(piece) then IntArg(DigitsValue(piece)) else StrArg(piece)
  }

  /** The pieces of an argument list: spaces removed, split at commas. */
  function ArgPieces(text: string): seq<string>
  {
    Split(RemoveAll(text, ' '), ',')
  }

  function ParseArgs(text: string): (args: seq<Arg>)
    ensures |args| == |ArgPieces(text)|
    ensures forall i :: 0 <= i < |args| ==> args[i] == ParseArg(ArgPieces(text)[i])
  {
    var pieces := ArgPieces(text);
    seq(|pieces|, i requires 0 <= i < |pieces| => ParseArg(pieces[i]))
  }

  /** A binding string, taken apart: the action name (the text before the
      first `:`, with `-` turned into `_`), its dotted path, and its
      arguments (none when nothing follows the `:`). */
  datatype ParsedBinding = ParsedBinding(name: string, path: seq<string>, args: seq<Arg>)

  function ParseBinding(binding: string): (p: ParsedBinding)
    ensures ':' !in p.name && '-' !in p.name
    ensures p.path == Split(p.name, '.')
  {
    var parts := Partition(binding, ':');
    var name := Replace(parts.0, '-', '_');
    ParsedBinding(name, Split(name, '.'), if parts.2 == "" then [] else ParseArgs(parts.2))
  }

  /** The name is the text before the first `:` with `-` replaced by `_`,
      and the arguments are parsed from everything after it; an empty tail
      gives no arguments. */
  lemma {:induction false} ParseAtFirstColon(head: string, tail: string)
    requires ':' !in head
    ensures ParseBinding(head + ":" + tail).name == Replace(head, '-', '_')
    ensures ParseBinding(head + ":" + tail).args == if tail == "" then [] else ParseArgs(tail)
  {
    assert head + ":" + tail == head + [':'] + tail;
    PartitionAt(head, tail, ':');
  }

  /** Without a `:` the whole string is the name and there are no
      arguments. */
  lemma {:induction false} ParseWithoutColon(binding: string)
    requires ':' !in binding
    ensures ParseBinding(binding).name == Replace(binding, '-', '_')
    ensures ParseBinding(binding).args == []
  {
  }

  /** A non-empty argument list has one argument per comma plus one; an
      argument is an int exactly when it is non-empty and all digits, and
      otherwise keeps its text, which has no spaces and no commas. */
  lemma {:induction false} ArgsShape(text: string)
    requires text != ""
    ensures var args := ParseBinding(":" + text).args;
      |args| == Count(RemoveAll(text, ' '), ',') + 1 &&
      forall i :: 0 <= i < |args| ==>
        (args[i].IntArg? <==> IsDigits(ArgPieces(text)[i])) &&
        (args[i].StrArg? ==> ' ' !in args[i].text && ',' !in args[i].text)
  {
    ParseAtFirstColon("", text);
    var pieces := ArgPieces(text);
    forall i, k | 0 <= i < |pieces| && 0 <= k < |pieces[i]|
      ensures pieces[i][k] != ' '
    {
      SplitPieceFromText(RemoveAll(text, ' '), ',', i, k);
    }
  }

  /** Every character of a split piece comes from the split string. */
  lemma {:induction false} SplitPieceFromText(s: string, sep: char, i: nat, k: nat)
    requires i < |Split(s, sep)| && k < |Split(s, sep)[i]|
    ensures Split(s, sep)[i][k] in s
  {
    if s != [] {
      var rest := Split(s[1..], sep);
      if s[0] == sep {
        assert i > 0;
        SplitPieceFromText(s[1..], sep, i - 1, k);
      } else if i == 0 && k == 0 {
      } else if i == 0 {
        SplitPieceFromText(s[1..], sep, 0, k - 1);
      } else {
        SplitPieceFromText(s[1..], sep, i, k);
      }
    }
  }

  /** `int(str(n))`: a number written out in a binding comes back as that
      int. */
  lemma {:induction false} IntArgRoundTrip(n: nat)
    ensures ParseArg(Decimal(n)) == IntArg(n)
  {
    DecimalRoundTrip(n);
  }

  /** A signed or empty argument is not all digits, so it stays text:
      minus one cannot be written as an int. */
  lemma SignedArgsStayText()
    ensures ParseArg("-1") == StrArg("-1")
    ensures ParseArg("+1") == StrArg("+1")
    ensures ParseArg("") == StrArg("")
  {
    assert !IsDigitChar("-1"[0]);
    assert !IsDigitChar("+1"[0]);
  }

  // ---------------------------------------------------------------------
  // The action table
  // ---------------------------------------------------------------------

  /** The actions a binding can name. */
  datatype Action =
    | Plain(plain: PlainAction)
    | HomeAxisAction | HomeJointAction
    | UnhomeAxis | UnhomeJoint
    | JogAxisAction

  /** The action methods of one action group, by name. */
  function GroupAction(group: string, name: string): (r: Option<Action>)
    ensures r == Some(JogAxisAction) <==> group == "jog" && name == "axis"
    ensures r.Some? ==> |group| > 0 && (group == "jog" || group[0] != 'j')
  {
    if group == "estop" then
      if name == "activate" then Some(Plain(EstopActivate))
      else if name == "reset" then Some(Plain(EstopReset))
      else if name == "toggle" then Some(Plain(EstopToggleAction))
      else if name == "is_activated" then Some(Plain(EstopIsActivatedAction))
      else None
    else if group == "power" then
      if name == "on" then Some(Plain(PowerOn))
      else if name == "off" then Some(Plain(PowerOff))
      else if name == "toggle" then Some(Plain(PowerToggleAction))
      else if name == "is_on" then Some(Plain(PowerIsOnAction))
      else None
    else if group == "feedhold" then
      if name == "on" then Some(Plain(FeedholdOn))
      else if name == "off" then Some(Plain(FeedholdOff))
      else if name == "toggle" then Some(Plain(FeedholdToggleAction))
      else None
    else if group == "mode" then
      if name == "manual" then Some(Plain(ModeManualAction))
      else if name == "auto" then Some(Plain(ModeAutoAction))
      else if name == "mdi" then Some(Plain(ModeMdiAction))
      else None
    else if group == "home" then
      if name == "all" then Some(Plain(HomeAllAction))
      else if name == "axis" then Some(HomeAxisAction)
      else if name == "joint" then Some(HomeJointAction)
      else None
    else if group == "unhome" then
      if name == "all" then Some(Plain(UnhomeAll))
      else if name == "axis" then Some(UnhomeAxis)
      else if name == "joint" then Some(UnhomeJoint)
      else None
    else if group == "jog" then
      if name == "axis" then Some(JogAxisAction) else None
    else None
  }

  /** `reduce(getattr, path, module)` restricted to the action methods: a
      path names an action exactly when it is a group and a name of that
      group; anything else raises AttributeError. */
  function Lookup(path: seq<string>): (r: Result<Action>)
    ensures r.Ok? ==> |path| == 2 && GroupAction(path[0], path[1]) == Some(r.value)
    ensures |path| == 2 && GroupAction(path[0], path[1]).Some? ==> r.Ok?
    ensures r.Err? ==> r.error.AttributeError?
  {
    if |path| == 2 && GroupAction(path[0], path[1]).Some? then Ok(GroupAction(path[0], path[1]).value)
    else Err(AttributeError(Join(path, '.')))
  }

  // ---------------------------------------------------------------------
  // Handlers
  // ---------------------------------------------------------------------

  /** `action.endswith('toggle')`. */
  predicate IsToggle(name: string)
  {
    EndsWith(name, "toggle")
  }

  /** `action.startswith('jog')`. */
  predicate IsJog(name: string)
  {
    StartsWith(name, "jog")
  }

  /** What binding a widget sets up: the action, the handlers to connect,
      and whether the widget becomes checkable. */
  datatype Plan = Plan(name: string, action: Action, slots: seq<Slot>, checkable: bool)

  /** Does the binding connect press and release handlers? */
  predicate BindsPressRelease(p: ParsedBinding)
  {
    p.args != [] && IsJog(p.name)
  }

  /** The lookup and the handler choice of `bindWidget`: a menu action
      fires on `triggered`, anything else on `clicked`; with no arguments
      the action is called bare; a jog with arguments is called on press,
      and again with `speed=0` on release; any other action is called with
      its arguments. A menu action has no `pressed` signal, so binding one
      to a jog with arguments raises AttributeError before anything is
      connected. */
  function PlanBinding(binding: string, isQAction: bool): (r: Result<Plan>)
    ensures var p := ParseBinding(binding);
      (r.Ok? <==> Lookup(p.path).Ok? && !(isQAction && BindsPressRelease(p))) &&
      (Lookup(p.path).Err? ==> r == Err(Lookup(p.path).error)) &&
      (Lookup(p.path).Ok? && r.Err? ==> r.error == AttributeError("pressed")) &&
      (r.Ok? ==> r.value.name == p.name && r.value.action == Lookup(p.path).value) &&
      (r.Ok? ==> (r.value.checkable <==> IsToggle(p.name))) &&
      (r.Ok? ==> forall i :: 0 <= i < |r.value.slots| ==> r.value.slots[i].path == p.path)
    ensures r.Ok? ==> 1 <= |r.value.slots| <= 2
    ensures r.Ok? ==> (|r.value.slots| == 2 <==> BindsPressRelease(ParseBinding(binding)))
    ensures r.Ok? ==> forall i :: 0 <= i < |r.value.slots| ==> r.value.slots[i].args == ParseBinding(binding).args
    ensures r.Ok? && |r.value.slots| == 1 ==>
      r.value.slots[0].signal == (if isQAction then Triggered else Clicked) && !r.value.slots[0].speedZero
    ensures r.Ok? && |r.value.slots| == 2 ==>
      r.value.slots[0].signal == Pressed && !r.value.slots[0].speedZero &&
      r.value.slots[1].signal == Released && r.value.slots[1].speedZero
  {
    var p := ParseBinding(binding);
    match Lookup(p.path)
    case Err(e) => Err(e)
    case Ok(a) =>
      if isQAction && BindsPressRelease(p) then Err(AttributeError("pressed"))
      else
      var signal := if isQAction then Triggered else Clicked;
      var slots :=
        if p.args == [] then [Slot(signal, p.path, [], false)]
        else if IsJog(p.name) then [Slot(Pressed, p.path, p.args, false), Slot(Released, p.path, p.args, true)]
        else [Slot(signal, p.path, p.args, false)];
      Ok(Plan(p.name, a, slots, IsToggle(p.name)))
  }

  // ---------------------------------------------------------------------
  // Calling an action with bound arguments
  // ---------------------------------------------------------------------

  /** What an action reads when it runs. */
  datatype Env = Env(stat: Status, jog: JogSettings, coordinates: seq<string>)

  function ArgAxis(a: Arg): AxisRef
  {
    match a
    case IntArg(n) => ByNumber(n)
    case StrArg(s) => ByLetter(s)
  }

  function ArgDirection(a: Arg): Direction
  {
    match a
    case IntArg(n) => DirNumber(n)
    case StrArg(s) => DirWord(s)
  }

  function ArgParam(a: Arg): Param
  {
    match a
    case IntArg(n) => Number(n as real)
    case StrArg(s) => Text(s)
  }

  /** The positional arguments of `jog.axis(axis, direction=0, speed=None,
      distance=None)`, with the defaults for the ones not given. */
  datatype JogArgs = JogArgs(axis: AxisRef, direction: Direction, speed: Param, distance: Param)

  function PositionalJogArgs(args: seq<Arg>): JogArgs
    requires 1 <= |args| <= 4
  {
    JogArgs(
      ArgAxis(args[0]),
      if |args| >= 2 then ArgDirection(args[1]) else DirNumber(0),
      if |args| >= 3 then ArgParam(args[2]) else Missing,
      if |args| == 4 then ArgParam(args[3]) else Missing)
  }

  /** `jog.axis(*args)`, or `jog.axis(*args, speed=0)` when `speedZero`, as
      written: Python refuses a call with no axis, with more than four
      arguments, or with `speed` given both by position and by keyword. */
  function JogCallAsWritten(args: seq<Arg>, speedZero: bool, settings: JogSettings): (r: Result<JogCmd>)
    ensures |args| == 0 || |args| > 4 ==> r == Err(TypeError)
    ensures speedZero && |args| >= 3 ==> r == Err(TypeError)
  {
    if |args| == 0 || |args| > 4 then Err(TypeError)
    else if speedZero && |args| >= 3 then Err(TypeError)
    else
      var j := PositionalJogArgs(args);
      JogAxis(j.axis, j.direction, if speedZero then Number(0.0) else j.speed, j.distance, settings)
  }

  /** A jog binding that gives a speed cannot be released: the release
      handler raises TypeError, so the jog started by the press is never
      stopped by it. */
  lemma {:induction false} ReleaseWithSpeedRaises(head: string, tail: string, settings: JogSettings)
    requires head == "jog.axis" && tail == "x" + [','] + "pos" + [','] + "10"
    ensures var args := ParseBinding(head + ":" + tail).args;
      JogCallAsWritten(args, false, settings).Ok? &&
      !JogCallAsWritten(args, false, settings).value.JogStop? &&
      JogCallAsWritten(args, true, settings) == Err(TypeError)
  {
    ParseExample(head, tail);
    ExampleJog([StrArg("x"), StrArg("pos"), IntArg(10)], settings);
  }

  lemma {:induction false} ExampleJog(args: seq<Arg>, settings: JogSettings)
    requires args == [StrArg("x"), StrArg("pos"), IntArg(10)]
    ensures JogCallAsWritten(args, false, settings) == Ok(JogIncrement(0, Velocity(10.0, 1), settings.jogIncrement)) ||
      JogCallAsWritten(args, false, settings) == Ok(JogContinuous(0, Velocity(10.0, 1)))
    ensures JogCallAsWritten(args, true, settings) == Err(TypeError)
  {
    var j := PositionalJogArgs(args);
    assert j == JogArgs(ByLetter("x"), DirWord("pos"), Number(10.0), Missing);
    DirectionWords();
    NumberOfName(0);
    assert AxisNames[0] == "x";
    assert GetAxisNumber(j.axis) == Ok(0);
    assert !IsStopRequest(j.direction, j.speed);
  }

  /** The jog call with the release fixed: `speed=0` replaces any speed the
      binding gave, so a release always stops the axis it names. */
  function JogCall(args: seq<Arg>, speedZero: bool, settings: JogSettings): (r: Result<JogCmd>)
    ensures |args| == 0 || |args| > 4 ==> r == Err(TypeError)
    ensures !speedZero && 1 <= |args| <= 4 ==>
      var j := PositionalJogArgs(args);
      r == JogAxis(j.axis, j.direction, j.speed, j.distance, settings)
    ensures !(speedZero && |args| >= 3) ==> r == JogCallAsWritten(args, speedZero, settings)
    ensures speedZero && 1 <= |args| <= 4 && GetAxisNumber(ArgAxis(args[0])).Ok? ==>
      r == Ok(JogStop(GetAxisNumber(ArgAxis(args[0])).value))
  {
    if |args| == 0 || |args| > 4 then Err(TypeError)
    else
      var j := PositionalJogArgs(args);
      JogAxis(j.axis, j.direction, if speedZero then Number(0.0) else j.speed, j.distance, settings)
  }

  /** A jog run issues its one command, or raises before issuing any. */
  function JogRun(r: Result<JogCmd>): Run
  {
    match r
    case Ok(c) => Run([Jog(c)], None)
    case Err(e) => Run([], Some(e))
  }

  /** Calling an action with bound arguments: the argument count must match
      the method's parameters, and `speed=0` is accepted only by
      `jog.axis`. A jog goes through the corrected `JogCall`, which differs
      from the call as written only for a release whose binding gives a
      speed. */
  function Call(a: Action, args: seq<Arg>, speedZero: bool, env: Env): (r: Run)
    ensures speedZero && !a.JogAxisAction? ==> r == Run([], Some(TypeError))
    ensures a.Plain? && !speedZero ==>
      r == if args == [] then Run(PlainCommands(a.plain, env.stat), None) else Run([], Some(TypeError))
    ensures a.HomeAxisAction? && !speedZero && |args| == 1 ==> r == HomeAxis(ArgAxis(args[0]), env.coordinates)
    ensures a.HomeJointAction? && !speedZero && |args| == 1 && args[0].IntArg? ==>
      r == Run(HomeJointCommands(args[0].n), None)
    ensures (a.HomeAxisAction? || a.HomeJointAction? || a.UnhomeAxis? || a.UnhomeJoint?) && |args| != 1 ==>
      r == Run([], Some(TypeError))
    ensures (a.UnhomeAxis? || a.UnhomeJoint?) && !speedZero && |args| == 1 ==> r == Run([], None)
    ensures a.HomeJointAction? && !speedZero && |args| == 1 && args[0].StrArg? ==>
      r == Run([SetTaskMode(ModeManual), TeleopEnable(false)], Some(TypeError))
    ensures a.JogAxisAction? ==> r == JogRun(JogCall(args, speedZero, env.jog))
    ensures a.JogAxisAction? && !(speedZero && |args| >= 3) ==>
      r == JogRun(JogCallAsWritten(args, speedZero, env.jog))
  {
    if speedZero && !a.JogAxisAction? then Run([], Some(TypeError))
    else
      match a
      case Plain(p) =>
        if args == [] then Run(PlainCommands(p, env.stat), None) else Run([], Some(TypeError))
      case HomeAxisAction =>
        if |args| == 1 then HomeAxis(ArgAxis(args[0]), env.coordinates) else Run([], Some(TypeError))
      case HomeJointAction =>
        if |args| != 1 then Run([], Some(TypeError))
        else
          (match args[0]
           case IntArg(n) => Run(HomeJointCommands(n), None)
           // the controller's home() accepts only a joint number
           case StrArg(_) => Run([SetTaskMode(ModeManual), TeleopEnable(false)], Some(TypeError)))
      case UnhomeAxis =>
        if |args| == 1 then Run([], None) else Run([], Some(TypeError))
      case UnhomeJoint =>
        if |args| == 1 then Run([], None) else Run([], Some(TypeError))
      case JogAxisAction =>
        JogRun(JogCall(args, speedZero, env.jog))
  }

  /** What a connected handler does when its signal fires. */
  function Fire(slot: Slot, env: Env): (r: Run)
    ensures Lookup(slot.path).Err? ==> r.commands == [] && r.raised.Some? && r.raised.value.AttributeError?
    ensures slot.speedZero && Lookup(slot.path) != Ok(JogAxisAction) ==> r.commands == [] && r.raised.Some?
  {
    match Lookup(slot.path)
    case Err(e) => Run([], Some(e))
    case Ok(a) => Call(a, slot.args, slot.speedZero, env)
  }

  // ---------------------------------------------------------------------
  // Properties of whole bindings
  // ---------------------------------------------------------------------

  /** Releasing a bound jog button always stops its axis: the release
      handler of any binding issues exactly one JOG_STOP for the axis named
      by its first argument, or raises without issuing anything when that
      axis or the argument count is not accepted. */
  lemma {:induction false} ReleaseAlwaysStops(binding: string, isQAction: bool, env: Env, slot: Slot)
    requires PlanBinding(binding, isQAction).Ok?
    requires slot in PlanBinding(binding, isQAction).value.slots
    requires slot.signal == Released
    ensures slot.args != []
    ensures var r := Fire(slot, env);
      r.raised.None? ==>
        GetAxisNumber(ArgAxis(slot.args[0])).Ok? &&
        r.commands == [Jog(JogStop(GetAxisNumber(ArgAxis(slot.args[0])).value))]
    ensures Fire(slot, env).raised.Some? ==> Fire(slot, env).commands == []
  {
    ReleasedSlotIsJog(binding, isQAction, slot);
    FireRelease(slot, env);
  }

  /** What the correction buys: a release whose binding names a known axis
      in at most four arguments never raises, whatever speed the binding
      gave, so the jog started by the press is always stopped. */
  lemma {:induction false} ReleaseNeverRaises(binding: string, isQAction: bool, env: Env, slot: Slot)
    requires PlanBinding(binding, isQAction).Ok?
    requires slot in PlanBinding(binding, isQAction).value.slots
    requires slot.signal == Released
    ensures slot.args == ParseBinding(binding).args && slot.args != []
    ensures |slot.args| <= 4 && GetAxisNumber(ArgAxis(slot.args[0])).Ok? ==> Fire(slot, env).raised.None?
  {
    ReleasedSlotIsJog(binding, isQAction, slot);
    FireRelease(slot, env);
  }

  /** A handler that calls `jog.axis` with `speed=0` fires as
      `JogReleaseStops` says. */
  lemma {:induction false} FireRelease(slot: Slot, env: Env)
    requires slot.speedZero && Lookup(slot.path) == Ok(JogAxisAction)
    requires slot.args != []
    ensures var r := Fire(slot, env);
      r.raised.None? ==>
        GetAxisNumber(ArgAxis(slot.args[0])).Ok? &&
        r.commands == [Jog(JogStop(GetAxisNumber(ArgAxis(slot.args[0])).value))]
    ensures Fire(slot, env).raised.Some? ==> Fire(slot, env).commands == []
    ensures |slot.args| <= 4 && GetAxisNumber(ArgAxis(slot.args[0])).Ok? ==> Fire(slot, env).raised.None?
  {
    assert Fire(slot, env) == Call(JogAxisAction, slot.args, true, env);
    JogReleaseStops(slot.args, env);
  }

  /** The released handler of a plan belongs to a jog binding, calls
      `jog.axis` and passes `speed=0`. */
  lemma {:induction false} ReleasedSlotIsJog(binding: string, isQAction: bool, slot: Slot)
    requires PlanBinding(binding, isQAction).Ok?
    requires slot in PlanBinding(binding, isQAction).value.slots
    requires slot.signal == Released
    ensures slot.speedZero && Lookup(slot.path) == Ok(JogAxisAction)
    ensures slot.args == ParseBinding(binding).args && slot.args != []
  {
    var plan := PlanBinding(binding, isQAction).value;
    var p := ParseBinding(binding);
    assert |plan.slots| == 2 && slot == plan.slots[1];
    assert IsJog(p.name);
    JogPathIsJogAxis(p.name);
  }

  /** `jog.axis(*args, speed=0)` issues one JOG_STOP for the axis of its
      first argument, or raises without issuing anything. */
  lemma {:induction false} JogReleaseStops(args: seq<Arg>, env: Env)
    ensures var r := Call(JogAxisAction, args, true, env);
      (r.raised.None? ==>
         1 <= |args| && GetAxisNumber(ArgAxis(args[0])).Ok? &&
         r.commands == [Jog(JogStop(GetAxisNumber(ArgAxis(args[0])).value))]) &&
      (r.raised.Some? ==> r.commands == []) &&
      (1 <= |args| <= 4 && GetAxisNumber(ArgAxis(args[0])).Ok? ==> r.raised.None?)
  {
    var c := JogCall(args, true, env.jog);
    if c.Ok? {
      assert 1 <= |args| <= 4;
      assert GetAxisNumber(ArgAxis(args[0])).Ok?;
    }
  }

  /** A name that starts with `jog` and splits into a table path is
      `jog.axis`. */
  lemma {:induction false} JogPathIsJogAxis(name: string)
    requires IsJog(name)
    requires Lookup(Split(name, '.')).Ok?
    ensures Lookup(Split(name, '.')) == Ok(JogAxisAction)
  {
    var path := Split(name, '.');
    JoinSplit(name, '.');
    assert Join(path, '.') == path[0] + ['.'] + path[1] by {
      assert path[1..] == [path[1]];
    }
    assert name[0] == 'j' by {
      assert name[..3][0] == "jog"[0];
    }
    assert path[0][0] == name[0];
  }

  lemma {:induction false} ExamplePath(name: string)
    requires name == "jog" + ['.'] + "axis"
    ensures Split(name, '.') == ["jog", "axis"]
  {
    SplitAt("jog", "axis", '.');
    SplitWhole("axis", '.');
  }

  lemma {:induction false} ExamplePieces(tail: string)
    requires tail == "x" + [','] + "pos" + [','] + "10"
    ensures ArgPieces(tail) == ["x", "pos", "10"]
  {
    RemoveAllAbsent(tail, ' ');
    assert tail == "x" + [','] + ("pos" + [','] + "10");
    SplitAt("x", "pos" + [','] + "10", ',');
    SplitAt("pos", "10", ',');
    SplitWhole("10", ',');
  }

  lemma ExampleArgs()
    ensures ParseArg("x") == StrArg("x")
    ensures ParseArg("pos") == StrArg("pos")
    ensures ParseArg("10") == IntArg(10)
  {
    assert !IsDigitChar("pos"[0]);
    assert "10"[..1] == "1";
    assert "1"[..0] == "";
  }

  lemma {:induction false} ExampleArgList(tail: string)
    requires tail == "x" + [','] + "pos" + [','] + "10"
    ensures ParseArgs(tail) == [StrArg("x"), StrArg("pos"), IntArg(10)]
  {
    ExamplePieces(tail);
    ExampleArgs();
    var args := ParseArgs(tail);
    assert args[0] == ParseArg("x");
    assert args[1] == ParseArg("pos");
    assert args[2] == ParseArg("10");
  }

  lemma {:induction false} ExampleName(head: string)
    requires head == "jog.axis"
    ensures Replace(head, '-', '_') == head
    ensures Split(head, '.') == ["jog", "axis"]
  {
    assert head == "jog" + ['.'] + "axis";
    assert '-' !in head;
    ExamplePath(head);
  }

  /** The binding `jog.axis:x,pos,10` parses to the path jog/axis and the
      arguments "x", "pos", 10. */
  lemma {:induction false} ParseExample(head: string, tail: string)
    requires head == "jog.axis" && tail == "x" + [','] + "pos" + [','] + "10"
    ensures ParseBinding(head + ":" + tail) ==
      ParsedBinding(head, ["jog", "axis"], [StrArg("x"), StrArg("pos"), IntArg(10)])
  {
    ParseAtFirstColon(head, tail);
    ExampleName(head);
    ExampleArgList(tail);
  }

  // ---------------------------------------------------------------------
  // Binding a widget: the initial status sync
  // ---------------------------------------------------------------------

  /** What `bindWidget` does to the widget right away, after connecting
      its handlers: nothing, set its checked state, run an enable check on
      it, or raise. */
  datatype SyncStep = NoSync | SyncChecked(value: bool) | SyncVerdict(verdict: Verdict) | SyncRaise(error: PyError)

  /** The binding name of each mode action. */
  function ModeName(m: TaskMode): string
  {
    match m
    case ModeManual => "mode.manual"
    case ModeAuto => "mode.auto"
    case ModeMdi => "mode.mdi"
  }

  /** The mode a mode binding selects, if the name is one. */
  function ModeOfName(name: string): (r: Option<TaskMode>)
    ensures r.Some? ==> ModeName(r.value) == name
  {
    if name == "mode.manual" then Some(ModeManual)
    else if name == "mode.auto" then Some(ModeAuto)
    else if name == "mode.mdi" then Some(ModeMdi)
    else None
  }

  /** The names of the homing bindings. */
  predicate IsHomeName(name: string)
  {
    name == "home.all" || name == "home.joint" || name == "home.axis"
  }

  /** The status-dependent part of `bindWidget` as written: an E-stop
      binding is only subscribed; a power binding calls `power.ok` and a
      homing binding `home.ok`, neither of which the groups define (and the
      `home.ok` calls pass the joint first and the widget second, the
      reverse of the check's `(widget, jnum)` parameters); a mode
      binding is checked when its mode is the current one. `home.axis`
      first passes `arg` to `getAxisLetter`: that name is bound (to the last
      argument piece, which the argument comprehension leaves behind in
      Python 2) only when the binding has arguments, so without arguments it
      raises NameError before reaching `home.ok`. `hasArgs` says whether
      anything follows the `:`. */
  function InitialSyncAsWritten(name: string, hasArgs: bool, s: Status): (r: SyncStep)
    ensures r.SyncRaise? <==> !StartsWith(name, "estop") && (StartsWith(name, "power") || IsHomeName(name))
    ensures r.SyncRaise? ==> (r.error == NameError("arg") <==> name == "home.axis" && !hasArgs)
    ensures r.SyncRaise? && r.error != NameError("arg") ==> r.error == AttributeError("ok")
    ensures !r.SyncRaise? ==> r == InitialSync(name, s)
  {
    if StartsWith(name, "estop") then NoSync
    else if StartsWith(name, "power") then
      assert name[0] == 'p' by { assert name[..5][0] == "power"[0]; }
      SyncRaise(AttributeError("ok"))
    else if ModeOfName(name).Some? then SyncChecked(s.taskMode == ModeOfName(name).value)
    else if name == "home.axis" && !hasArgs then SyncRaise(NameError("arg"))
    else if IsHomeName(name) then SyncRaise(AttributeError("ok"))
    else NoSync
  }

  /** The sync as intended: a power binding runs the power check and a
      homing binding the home check on the widget, with the widget passed
      as the widget rather than as the joint (the check's verdict does not
      depend on the joint), and nothing raises. */
  function InitialSync(name: string, s: Status): (r: SyncStep)
    ensures !r.SyncRaise?
    ensures r.SyncChecked? <==> !StartsWith(name, "estop") && !StartsWith(name, "power") && ModeOfName(name).Some?
    ensures r.SyncChecked? ==> (r.value <==> ModeOfName(name) == Some(s.taskMode))
    ensures r.SyncVerdict? ==> r.verdict.Consistent()
    ensures r.SyncVerdict? <==> !StartsWith(name, "estop") && (StartsWith(name, "power") || IsHomeName(name))
    ensures r.SyncVerdict? && StartsWith(name, "power") ==> (r.verdict.ok <==> s.taskState == StateEstopReset)
    ensures r.SyncVerdict? && !StartsWith(name, "power") ==> (r.verdict.ok <==> PowerIsOn(s))
  {
    if StartsWith(name, "estop") then NoSync
    else if StartsWith(name, "power") then SyncVerdict(PowerVerdict(s))
    else if ModeOfName(name).Some? then SyncChecked(s.taskMode == ModeOfName(name).value)
    else if IsHomeName(name) then SyncVerdict(HomeVerdict(s, -1))
    else NoSync
  }

  /** Each mode binding is found again from its name. */
  lemma {:induction false} ModeNameRoundTrip(m: TaskMode)
    ensures ModeOfName(ModeName(m)) == Some(m)
  {
    match m
    case ModeManual =>
    case ModeAuto =>
      assert "mode.auto" != "mode.manual" by { assert |"mode.auto"| != |"mode.manual"|; }
    case ModeMdi =>
      assert "mode.mdi" != "mode.manual" by { assert |"mode.mdi"| != |"mode.manual"|; }
      assert "mode.mdi" != "mode.auto" by { assert "mode.mdi"[5] != "mode.auto"[5]; }
  }

  /** The three mode widgets are synced to show the current mode: exactly
      the one for that mode is checked. */
  lemma {:induction false} ModeWidgetsShowMode(m: TaskMode, s: Status)
    ensures InitialSync(ModeName(m), s) == SyncChecked(m == s.taskMode)
  {
    ModeNameRoundTrip(m);
    var name := ModeName(m);
    assert name[0] == 'm';
    assert !StartsWith(name, "estop") by { assert name[..5][0] != "estop"[0]; }
    assert !StartsWith(name, "power") by { assert name[..5][0] != "power"[0]; }
  }

  /** Binding any power action raises AttributeError, after the handlers
      are connected. */
  lemma {:induction false} PowerBindingRaises(name: string, hasArgs: bool, s: Status)
    requires StartsWith(name, "power")
    ensures InitialSyncAsWritten(name, hasArgs, s) == SyncRaise(AttributeError("ok"))
    ensures InitialSync(name, s) == SyncVerdict(PowerVerdict(s))
  {
    assert name[..5] == "power";
    assert !StartsWith(name, "estop") by { assert name[..5][0] != "estop"[0]; }
  }

  /** Binding a homing action raises as written: AttributeError from
      `home.ok`, or NameError for `home.axis` without arguments. As
      intended it enables the widget exactly when the machine is on. */
  lemma {:induction false} HomeBindingRaises(name: string, hasArgs: bool, s: Status)
    requires IsHomeName(name)
    ensures InitialSyncAsWritten(name, hasArgs, s) ==
      SyncRaise(if name == "home.axis" && !hasArgs then NameError("arg") else AttributeError("ok"))
    ensures InitialSync(name, s) == SyncVerdict(HomeVerdict(s, -1))
  {
    assert name[0] == 'h';
    assert !StartsWith(name, "estop") by { assert name[..5][0] != "estop"[0]; }
    assert !StartsWith(name, "power") by { assert name[..5][0] != "power"[0]; }
    assert ModeOfName(name) == None by { assert name[0] != 'm'; }
  }

  // ---------------------------------------------------------------------
  // Binding a widget
  // ---------------------------------------------------------------------

  /** `bindWidget(widget, binding)`, with the status sync as intended: an
      unknown action, or a menu action bound to a jog with arguments,
      raises before the widget is touched; otherwise the
      planned handlers are connected in order, a toggle makes the widget
      checkable, and the initial sync is applied, a check recording its
      message on `check`. */
  method Bind(w: Widget, binding: string, s: Status, check: OkCheck) returns (r: Result<Action>)
    modifies w, check
    ensures r.Ok? <==> PlanBinding(binding, w.isQAction).Ok?
    ensures r.Err? ==> PlanBinding(binding, w.isQAction) == Err(r.error)
    ensures r.Err? ==>
      w.slots == old(w.slots) && w.checkable == old(w.checkable) && w.checked == old(w.checked) &&
      w.enabled == old(w.enabled) && w.statusTip == old(w.statusTip) && w.toolTip == old(w.toolTip) &&
      check.msg == old(check.msg)
    ensures r.Ok? ==> var plan := PlanBinding(binding, w.isQAction).value;
      r.value == plan.action &&
      w.slots == old(w.slots) + plan.slots &&
      w.checkable == (old(w.checkable) || plan.checkable)
    ensures r.Ok? ==> var sync := InitialSync(PlanBinding(binding, w.isQAction).value.name, s);
      (sync.SyncChecked? ==> w.checked == sync.value) &&
      (!sync.SyncChecked? ==> w.checked == old(w.checked)) &&
      (sync.SyncVerdict? ==>
        w.enabled == sync.verdict.ok && w.statusTip == sync.verdict.msg && w.toolTip == sync.verdict.msg &&
        check.msg == sync.verdict.msg) &&
      (!sync.SyncVerdict? ==>
        w.enabled == old(w.enabled) && w.statusTip == old(w.statusTip) && w.toolTip == old(w.toolTip) &&
        check.msg == old(check.msg))
  {
    var planned := PlanBinding(binding, w.isQAction);
    if planned.Err? {
      return Err(planned.error);
    }
    var plan := planned.value;
    w.Connect(plan.slots[0]);
    if |plan.slots| == 2 {
      w.Connect(plan.slots[1]);
      assert plan.slots == [plan.slots[0], plan.slots[1]];
    } else {
      assert plan.slots == [plan.slots[0]];
    }
    if plan.checkable {
      w.MakeCheckable();
    }
    var sync := InitialSync(plan.name, s);
    match sync {
      case SyncChecked(v) =>
        w.SetChecked(v);
      case SyncVerdict(v) =>
        var _ := check.Report(v, w);
      case NoSync =>
    }
    r := Ok(plan.action);
  }
}

=== FILE: controller.dfy ===
/** The LinuxCNC controller as the action modules see it: a status snapshot
    to read (`STAT`, plus the jog settings kept by the status wrapper and the
    machine configuration) and command values to send (`CMD`). The
    controller itself is not modelled; an action's effect is the sequence of
    commands it issues. */
module Controller {
  import opened Py

  /** `STAT.task_state`. */
  datatype TaskState = StateEstop | StateEstopReset | StateOff | StateOn

  /** `STAT.task_mode`. */
  datatype TaskMode = ModeManual | ModeAuto | ModeMdi

  /** `STAT.spindle_brake` and the argument of `CMD.brake`. */
  datatype BrakeState = BrakeRelease | BrakeEngage

  /** The fields of the status snapshot that the decision logic reads. */
  datatype Status = Status(
    taskState: TaskState,
    taskMode: TaskMode,
    estop: bool,             // bool(STAT.estop)
    spindleBrake: BrakeState,
    feedHoldEnabled: bool,
    speedSetting: real,      // STAT.settings[2], the commanded spindle speed
    spindlerate: real)       // STAT.spindlerate, the spindle override factor

  /** Jog defaults held by the status wrapper (in machine units per minute
      for the velocities) and the configured coordinate letters. */
  datatype JogSettings = JogSettings(
    linearJogVelocity: real,
    angularJogVelocity: real,
    jogIncrement: real)

  /** The three kinds of `CMD.jog` call. The joint/teleop flag, always 0
      here, is not carried. */
  datatype JogCmd =
    | JogStop(axis: int)
    | JogContinuous(axis: int, velocity: real)
    | JogIncrement(axis: int, velocity: real, distance: real)

  /** The first argument of `CMD.spindle`. */
  datatype SpindleOp =
    | SpindleForward | SpindleReverse | SpindleOff
    | SpindleIncrease | SpindleDecrease | SpindleConstant

  /** One controller call. `SetTaskMode` stands for `setTaskMode` of the
      base action module, which is not part of this model. */
  datatype Command =
    | SetState(state: TaskState)                 // CMD.state
    | SetTaskMode(mode: TaskMode)                // setTaskMode
    | TeleopEnable(on: bool)                     // CMD.teleop_enable
    | Home(joint: int)                           // CMD.home
    | Jog(jog: JogCmd)                           // CMD.jog
    | Spindle(op: SpindleOp, speed: Option<real>) // CMD.spindle
    | Brake(brake: BrakeState)                   // CMD.brake
    | SetFeedHold(on: bool)                      // CMD.set_feed_hold

  /** What one call of an action does: the commands it issued, in order, and
      the exception it ended with, if any (commands issued before the
      exception stay issued). */
  datatype Run = Run(commands: seq<Command>, raised: Option<PyError>)
}

=== FILE: jog.dfy ===
/** `jog.axis(axis, direction=0, speed=None, distance=None)`: which of the
    three jog commands a jog request becomes. */
module Jog {
  import opened Py
  import opened Controller
  import opened Axes

  /** A direction as a caller gives it: a word, or a number used as is. */
  datatype Direction = DirWord(word: string) | DirNumber(n: int)

  /** An optional numeric argument: absent (`None`), a number, or text that
      the source would hand to `float()`. */
  datatype Param = Missing | Number(value: real) | Text(text: string)

  /** `{'neg': -1, 'pos': 1}.get(direction.lower(), 0)` for words. */
  function DirectionValue(d: Direction): (r: int)
    ensures d.DirNumber? ==> r == d.n
    ensures d.DirWord? ==> (r == 1 <==> Lower(d.word) == "pos")
    ensures d.DirWord? ==> (r == -1 <==> Lower(d.word) == "neg")
    ensures d.DirWord? ==> (r == 0 <==> Lower(d.word) != "pos" && Lower(d.word) != "neg")
  {
    match d
    case DirNumber(n) => n
    case DirWord(w) =>
      if Lower(w) == "neg" then -1
      else if Lower(w) == "pos" then 1
      else 0
  }

  /** `axis in (3, 4, 5)`: the rotary axes a, b and c. */
  predicate IsRotary(axis: int)
  {
    axis == 3 || axis == 4 || axis == 5
  }

  /** The speed used when none is given: the angular default for the
      rotary axes a, b, c (numbers 3, 4, 5), the linear default otherwise,
      each converted from per-minute to per-second. */
  function DefaultJogSpeed(axis: int, settings: JogSettings): (r: real)
    ensures IsRotary(axis) ==> r * 60.0 == settings.angularJogVelocity
    ensures !IsRotary(axis) ==> r * 60.0 == settings.linearJogVelocity
  {
    if IsRotary(axis) then settings.angularJogVelocity / 60.0
    else settings.linearJogVelocity / 60.0
  }

  /** The speed a moving jog uses: the given one, or the default. */
  function EffectiveSpeed(speed: Param, axis: int, settings: JogSettings): Result<real>
  {
    match speed
    case Missing => Ok(DefaultJogSpeed(axis, settings))
    case Number(v) => Ok(v)
    case Text(_) => Err(NotModelled)
  }

  /** The distance a moving jog uses: the given one, or the jog increment. */
  function EffectiveDistance(distance: Param, settings: JogSettings): Result<real>
  {
    match distance
    case Missing => Ok(settings.jogIncrement)
    case Number(d) => Ok(d)
    case Text(_) => Err(NotModelled)
  }

  /** `float(speed) * direction`. */
  function Velocity(speed: real, dir: int): real
  {
    speed * dir as real
  }

  /** Is the request a stop? A zero speed or a zero direction stops,
      whatever the distance; a missing speed is not zero. */
  predicate IsStopRequest(direction: Direction, speed: Param)
  {
    speed == Number(0.0) || DirectionValue(direction) == 0
  }

  /** `jog.axis`. The axis is resolved first (an unknown letter raises
      ValueError); a stop request then issues JOG_STOP; otherwise the speed
      and distance defaults are filled in and the distance picks
      JOG_CONTINUOUS (zero) or JOG_INCREMENT (anything else), with velocity
      speed times direction. */
  function JogAxis(axis: AxisRef, direction: Direction, speed: Param, distance: Param, settings: JogSettings): (r: Result<JogCmd>)
    ensures GetAxisNumber(axis).Err? ==> r == Err(ValueError)
    ensures r.Ok? ==> GetAxisNumber(axis) == Ok(r.value.axis)
    ensures GetAxisNumber(axis).Ok? && IsStopRequest(direction, speed) ==> r == Ok(JogStop(GetAxisNumber(axis).value))
    ensures r.Ok? && r.value.JogStop? ==> IsStopRequest(direction, speed)
    ensures GetAxisNumber(axis).Ok? && !speed.Text? && !distance.Text? ==> r.Ok?
    ensures r.Err? ==> r.error == ValueError || r.error == NotModelled
    ensures r.Ok? && !r.value.JogStop? ==>
      EffectiveSpeed(speed, r.value.axis, settings).Ok? &&
      r.value.velocity == Velocity(EffectiveSpeed(speed, r.value.axis, settings).value, DirectionValue(direction))
    ensures r.Ok? && !r.value.JogStop? ==>
      EffectiveDistance(distance, settings).Ok? &&
      (r.value.JogContinuous? <==> EffectiveDistance(distance, settings).value == 0.0)
    ensures r.Ok? && r.value.JogIncrement? ==> r.value.distance == EffectiveDistance(distance, settings).value
  {
    var dir := DirectionValue(direction);
    match GetAxisNumber(axis)
    case Err(e) => Err(e)
    case Ok(a) =>
      if speed == Number(0.0) || dir == 0 then Ok(JogStop(a))
      else
        match EffectiveSpeed(speed, a, settings)
        case Err(e) => Err(e)
        case Ok(v) =>
          match EffectiveDistance(distance, settings)
          case Err(e) => Err(e)
          case Ok(d) =>
            var velocity := Velocity(v, dir);
            if d == 0.0 then Ok(JogContinuous(a, velocity))
            else Ok(JogIncrement(a, velocity, d))
  }

  /** A positive speed times a direction has the direction's sign. */
  lemma {:induction false} ProductSign(speed: real, dir: int)
    requires speed > 0.0
    ensures Velocity(speed, dir) > 0.0 <==> dir > 0
    ensures Velocity(speed, dir) < 0.0 <==> dir < 0
  {
    if dir > 0 {
      assert dir as real >= 1.0;
      assert speed * dir as real >= speed;
    } else if dir < 0 {
      assert dir as real <= -1.0;
      assert speed * dir as real <= -speed;
    }
  }

  /** A moving jog goes the way the direction says when its speed is
      positive: the velocity's sign is the direction's sign. */
  lemma {:induction false} VelocityFollowsDirection(axis: AxisRef, direction: Direction, speed: Param, distance: Param, settings: JogSettings)
    requires JogAxis(axis, direction, speed, distance, settings).Ok?
    requires !JogAxis(axis, direction, speed, distance, settings).value.JogStop?
    requires EffectiveSpeed(speed, JogAxis(axis, direction, speed, distance, settings).value.axis, settings).value > 0.0
    ensures var v := JogAxis(axis, direction, speed, distance, settings).value.velocity;
      (v > 0.0 <==> DirectionValue(direction) > 0) && (v < 0.0 <==> DirectionValue(direction) < 0)
  {
    var r := JogAxis(axis, direction, speed, distance, settings).value;
    ProductSign(EffectiveSpeed(speed, r.axis, settings).value, DirectionValue(direction));
  }

  /** The release half of a jog binding passes speed 0, and that always
      stops the axis, whatever the direction and distance. */
  lemma ZeroSpeedStops(axis: AxisRef, direction: Direction, distance: Param, settings: JogSettings)
    requires GetAxisNumber(axis).Ok?
    ensures JogAxis(axis, direction, Number(0.0), distance, settings) == Ok(JogStop(GetAxisNumber(axis).value))
  {
  }

  /** Direction words ignore case; any other word, including the text "-1"
      that a binding produces for minus one, means no direction. */
  lemma DirectionWords()
    ensures DirectionValue(DirWord("pos")) == 1 && DirectionValue(DirWord("POS")) == 1
    ensures DirectionValue(DirWord("neg")) == -1 && DirectionValue(DirWord("Neg")) == -1
    ensures DirectionValue(DirWord("-1")) == 0 && DirectionValue(DirWord("+1")) == 0
  {
    assert Lower("POS") == "pos";
    assert Lower("Neg") == "neg";
    assert Lower("-1") == "-1";
    assert Lower("+1") == "+1";
  }

  /** With no speed given, a moving jog of a rotary axis uses the angular
      default and any other axis the linear one. */
  lemma {:induction false} DefaultSpeedByAxisKind(axis: AxisRef, direction: Direction, distance: Param, settings: JogSettings)
    requires JogAxis(axis, direction, Missing, distance, settings).Ok?
    requires !JogAxis(axis, direction, Missing, distance, settings).value.JogStop?
    ensures var r := JogAxis(axis, direction, Missing, distance, settings).value;
      r.velocity == Velocity(DefaultJogSpeed(r.axis, settings), DirectionValue(direction)) &&
      DefaultJogSpeed(r.axis, settings) * 60.0 ==
        (if IsRotary(r.axis) then settings.angularJogVelocity else settings.linearJogVelocity)
  {
  }
}

=== FILE: machine_actions.dfy ===
/** The machine action groups: E-stop, power, feed hold, mode, homing and
    unhoming, their enable checks, and the commands each action issues. */
module MachineActions {
  import opened Py
  import opened Controller
  import opened Widgets
  import opened Axes

  const PowerRefusal: string := "Can't turn machine ON until out of E-Stop"
  const HomeRefusal: string := "Machine must be on to home"

  /** `estop.is_activated`. */
  predicate EstopIsActivated(s: Status)
  {
    s.estop
  }

  /** `power.is_on`. */
  predicate PowerIsOn(s: Status)
  {
    s.taskState == StateOn
  }

  // ---------------------------------------------------------------------
  // Toggles
  // ---------------------------------------------------------------------

  /** `estop.toggle`: reset the E-stop when it is active, activate it when
      it is not. */
  function EstopToggle(s: Status): (c: Command)
    ensures c.SetState?
    ensures c.state == StateEstopReset <==> EstopIsActivated(s)
    ensures c.state == StateEstop <==> !EstopIsActivated(s)
  {
    if EstopIsActivated(s) then SetState(StateEstopReset) else SetState(StateEstop)
  }

  /** `power.toggle`: switch off when on, and switch on from every other
      state. */
  function PowerToggle(s: Status): (c: Command)
    ensures c.SetState?
    ensures c.state == StateOff <==> PowerIsOn(s)
    ensures c.state == StateOn <==> !PowerIsOn(s)
  {
    if PowerIsOn(s) then SetState(StateOff) else SetState(StateOn)
  }

  /** `feedhold.toggle`: release the hold when it is enabled, set it
      otherwise. */
  function FeedholdToggle(s: Status): (c: Command)
    ensures c.SetFeedHold?
    ensures c.on <==> !s.feedHoldEnabled
  {
    if s.feedHoldEnabled then SetFeedHold(false) else SetFeedHold(true)
  }

  /** Applying the command a toggle issues flips the state it reads: after
      the E-stop toggle the controller is in E-stop exactly when it was not
      before, and after the power toggle it is on exactly when it was not. */
  lemma TogglesFlip(s: Status)
    ensures (EstopToggle(s).state == StateEstop) != EstopIsActivated(s)
    ensures (PowerToggle(s).state == StateOn) != PowerIsOn(s)
    ensures FeedholdToggle(s).on != s.feedHoldEnabled
  {
  }

  // ---------------------------------------------------------------------
  // Enable checks
  // ---------------------------------------------------------------------

  /** `_estop_ok`: the E-stop can always be operated. */
  function EstopVerdict(): (v: Verdict)
    ensures v.ok && v.Consistent()
  {
    Verdict(true, "")
  }

  /** `_power_ok`: power can be switched only once out of E-stop. */
  function PowerVerdict(s: Status): (v: Verdict)
    ensures v.Consistent()
    ensures v.ok <==> s.taskState == StateEstopReset
    ensures !v.ok ==> v.msg == PowerRefusal
  {
    if s.taskState == StateEstopReset then Verdict(true, "") else Verdict(false, PowerRefusal)
  }

  /** `_mode_ok`: a mode can always be selected. */
  function ModeVerdict(): (v: Verdict)
    ensures v.ok && v.Consistent()
  {
    Verdict(true, "")
  }

  /** `_home_ok`: homing needs the machine on; the joint number is accepted
      but not consulted. */
  function HomeVerdict(s: Status, jnum: int): (v: Verdict)
    ensures v.Consistent()
    ensures v.ok <==> PowerIsOn(s)
    ensures !v.ok ==> v.msg == HomeRefusal
  {
    if PowerIsOn(s) then Verdict(true, "") else Verdict(false, HomeRefusal)
  }

  /** The power check and the home check never both pass: power can be
      switched only in E-stop reset, homing only when on. */
  lemma PowerAndHomeExclusive(s: Status, jnum: int)
    ensures !(PowerVerdict(s).ok && HomeVerdict(s, jnum).ok)
  {
  }

  /** `_estop_ok(widget)`: records an empty message and passes; it leaves
      the widget alone. */
  method EstopOk(check: OkCheck, widget: Widget?) returns (ok: bool)
    modifies check
    ensures ok == EstopVerdict().ok && check.msg == EstopVerdict().msg
  {
    check.msg := "";
    ok := true;
  }

  /** `_power_ok(widget)`. */
  method PowerOk(check: OkCheck, s: Status, widget: Widget?) returns (ok: bool)
    modifies check, widget
    ensures ok == PowerVerdict(s).ok && check.msg == PowerVerdict(s).msg
    ensures widget != null ==> widget.enabled == ok && widget.statusTip == check.msg && widget.toolTip == check.msg
    ensures widget != null ==> widget.checkable == old(widget.checkable) && widget.checked == old(widget.checked)
    ensures widget != null ==> widget.slots == old(widget.slots)
  {
    ok := check.Report(PowerVerdict(s), widget);
  }

  /** `_mode_ok(widget)`. */
  method ModeOk(check: OkCheck, widget: Widget?) returns (ok: bool)
    modifies check, widget
    ensures ok == ModeVerdict().ok && check.msg == ModeVerdict().msg
    ensures widget != null ==> widget.enabled == ok && widget.statusTip == check.msg && widget.toolTip == check.msg
    ensures widget != null ==> widget.checkable == old(widget.checkable) && widget.checked == old(widget.checked)
    ensures widget != null ==> widget.slots == old(widget.slots)
  {
    ok := check.Report(ModeVerdict(), widget);
  }

  /** `_home_ok(widget, jnum)`. */
  method HomeOk(check: OkCheck, s: Status, widget: Widget?, jnum: int) returns (ok: bool)
    modifies check, widget
    ensures ok == HomeVerdict(s, jnum).ok && check.msg == HomeVerdict(s, jnum).msg
    ensures widget != null ==> widget.enabled == ok && widget.statusTip == check.msg && widget.toolTip == check.msg
    ensures widget != null ==> widget.checkable == old(widget.checkable) && widget.checked == old(widget.checked)
    ensures widget != null ==> widget.slots == old(widget.slots)
  {
    ok := check.Report(HomeVerdict(s, jnum), widget);
  }

  // ---------------------------------------------------------------------
  // Homing
  // ---------------------------------------------------------------------

  /** `_home_joint(jnum)`: switch to manual mode, leave teleop, home. */
  function HomeJointCommands(jnum: int): (cmds: seq<Command>)
    ensures |cmds| == 3 && cmds[2] == Home(jnum)
    ensures cmds[0] == SetTaskMode(ModeManual) && cmds[1] == TeleopEnable(false)
  {
    [SetTaskMode(ModeManual), TeleopEnable(false), Home(jnum)]
  }

  /** `home.axis(axis)`: the axis is turned into a letter (a number outside
      -10..9 raises IndexError); `all` homes every joint (joint -1); any
      other letter homes the joint at its position in the configured
      coordinate letters (ValueError when it is not configured). */
  function HomeAxis(axis: AxisRef, coordinates: seq<string>): (r: Run)
    ensures GetAxisLetter(axis).Err? ==> r == Run([], Some(IndexError))
    ensures GetAxisLetter(axis) == Ok("all") ==> r == Run(HomeJointCommands(-1), None)
    ensures r.raised.None? ==> exists j :: r.commands == HomeJointCommands(j)
    ensures r.raised.None? && GetAxisLetter(axis) != Ok("all") ==>
      var j := r.commands[2].joint;
      0 <= j < |coordinates| && Ok(coordinates[j]) == GetAxisLetter(axis) &&
      GetAxisLetter(axis).value !in coordinates[..j]
    ensures r.raised.Some? ==> r.commands == []
    ensures GetAxisLetter(axis).Ok? && r.raised.Some? ==> r.raised == Some(ValueError)
    ensures GetAxisLetter(axis).Ok? && GetAxisLetter(axis) != Ok("all") ==>
      (r.raised.None? <==> GetAxisLetter(axis).value in coordinates)
  {
    LetterIsLower(axis);
    match GetAxisLetter(axis)
    case Err(e) => Run([], Some(e))
    case Ok(letter) =>
      if Lower(letter) == "all" then
        Run(HomeJointCommands(-1), None)
      else
        match IndexOf(coordinates, letter)
        case None => Run([], Some(ValueError))
        case Some(j) => Run(HomeJointCommands(j), None)
  }

  /** The letter of an axis is already lower case. */
  lemma LetterIsLower(axis: AxisRef)
    ensures GetAxisLetter(axis).Ok? ==> Lower(GetAxisLetter(axis).value) == GetAxisLetter(axis).value
  {
    AxisNamesLower();
    if axis.ByLetter? {
      LowerOfLower(axis.letter);
    }
  }

  /** Homing axis -1 homes all joints, the same as homing "all" in any
      case, since the table maps -1 to `all`. */
  lemma HomeAxisAll(coordinates: seq<string>)
    ensures HomeAxis(ByNumber(-1), coordinates) == Run(HomeJointCommands(-1), None)
    ensures HomeAxis(ByLetter("ALL"), coordinates) == Run(HomeJointCommands(-1), None)
  {
    assert Lower("ALL") == "all";
  }

  /** A configured letter homes the joint at its first position among the
      coordinates, whatever the case it is given in. */
  lemma {:induction false} HomeAxisLetter(s: string, coordinates: seq<string>, j: nat)
    requires Lower(s) != "all"
    requires j < |coordinates| && coordinates[j] == Lower(s) && Lower(s) !in coordinates[..j]
    ensures HomeAxis(ByLetter(s), coordinates) == Run(HomeJointCommands(j), None)
  {
    LowerOfLower(s);
    var k := IndexOf(coordinates, Lower(s));
    assert k.Some?;
    assert forall i :: 0 <= i < j ==> coordinates[..j][i] == coordinates[i];
    assert forall i :: 0 <= i < k.value ==> coordinates[..k.value][i] == coordinates[i];
  }

  // ---------------------------------------------------------------------
  // The remaining actions' commands
  // ---------------------------------------------------------------------

  /** The commands of each action that takes no argument. */
  datatype PlainAction =
    | EstopActivate | EstopReset | EstopToggleAction | EstopIsActivatedAction
    | PowerOn | PowerOff | PowerToggleAction | PowerIsOnAction
    | FeedholdOn | FeedholdOff | FeedholdToggleAction
    | ModeManualAction | ModeAutoAction | ModeMdiAction
    | HomeAllAction | UnhomeAll

  function PlainCommands(a: PlainAction, s: Status): (cmds: seq<Command>)
    ensures a.EstopToggleAction? ==> cmds == [EstopToggle(s)]
    ensures a.PowerToggleAction? ==> cmds == [PowerToggle(s)]
    ensures a.HomeAllAction? ==> cmds == HomeJointCommands(-1)
    ensures a.EstopIsActivatedAction? || a.PowerIsOnAction? || a.UnhomeAll? ==> cmds == []
  {
    match a
    case EstopActivate => [SetState(StateEstop)]
    case EstopReset => [SetState(StateEstopReset)]
    case EstopToggleAction => [EstopToggle(s)]
    case EstopIsActivatedAction => []
    case PowerOn => [SetState(StateOn)]
    case PowerOff => [SetState(StateOff)]
    case PowerToggleAction => [PowerToggle(s)]
    case PowerIsOnAction => []
    case FeedholdOn => [SetFeedHold(true)]
    case FeedholdOff => [SetFeedHold(false)]
    case FeedholdToggleAction => [FeedholdToggle(s)]
    case ModeManualAction => [SetTaskMode(ModeManual)]
    case ModeAutoAction => [SetTaskMode(ModeAuto)]
    case ModeMdiAction => [SetTaskMode(ModeMdi)]
    case HomeAllAction => HomeJointCommands(-1)
    case UnhomeAll => []
  }

  /** A toggle issues the same command as the action it chooses: E-stop
      reset or activate, power off or on. */
  lemma ToggleChoosesAction(s: Status)
    ensures PlainCommands(EstopToggleAction, s) ==
      PlainCommands(if EstopIsActivated(s) then EstopReset else EstopActivate, s)
    ensures PlainCommands(PowerToggleAction, s) ==
      PlainCommands(if PowerIsOn(s) then PowerOff else PowerOn, s)
    ensures PlainCommands(FeedholdToggleAction, s) ==
      PlainCommands(if s.feedHoldEnabled then FeedholdOff else FeedholdOn, s)
  {
  }
}

=== FILE: py.dfy ===
/** The parts of Python 2 that the action modules lean on: optional values,
    the exceptions they can raise, the value a binding argument becomes, and
    the `str` methods `partition`, `replace`, `split`, `lower`, `isdigit`,
    `startswith` and `endswith`, plus `int()` of a digit string and
    `list.index`. Characters are ASCII-only here: `lower` folds A-Z and
    `isdigit` accepts 0-9. */
module Py {

  datatype Option<+T> = None | Some(value: T)

  /** A Python exception, by class. `NotModelled` marks inputs whose outcome
      depends on behaviour outside the model (float() of text, for one). */
  datatype PyError =
    | AttributeError(attr: string)
    | NameError(name: string)
    | TypeError
    | ValueError
    | IndexError
    | NotModelled

  datatype Result<+T> = Ok(value: T) | Err(error: PyError)

  /** A bound argument after `int(arg) if arg.isdigit() else str(arg)`. */
  datatype Arg = IntArg(n: nat) | StrArg(text: string)

  /** Number of occurrences of `c` in `s`. */
  function Count(s: string, c: char): nat
  {
    if s == [] then 0 else (if s[0] == c then 1 else 0) + Count(s[1..], c)
  }

  /** `s.partition(sep)` for a one-character separator: the text before the
      first `sep`, whether there was one, and the text after it. */
  function Partition(s: string, sep: char): (r: (string, bool, string))
    ensures sep !in r.0
    ensures r.1 <==> sep in s
    ensures r.1 ==> s == r.0 + [sep] + r.2
    ensures !r.1 ==> r.0 == s && r.2 == ""
  {
    if s == [] then ("", false, "")
    else if s[0] == sep then ("", true, s[1..])
    else
      var rest := Partition(s[1..], sep);
      assert s == [s[0]] + s[1..];
      ([s[0]] + rest.0, rest.1, rest.2)
  }

  /** A string that contains `c` splits at its first `c` in only one way. */
  lemma {:induction false} FirstSplitUnique(h1: string, t1: string, h2: string, t2: string, c: char)
    requires c !in h1 && c !in h2
    requires h1 + [c] + t1 == h2 + [c] + t2
    ensures h1 == h2 && t1 == t2
  {
    var s := h1 + [c] + t1;
    assert s[|h1|] == c && s[|h2|] == c;
    assert forall i :: 0 <= i < |h1| ==> s[i] == h1[i] != c;
    assert forall i :: 0 <= i < |h2| ==> s[i] == h2[i] != c;
    assert |h1| == |h2|;
    assert h1 == s[..|h1|] == h2;
    assert t1 == s[|h1| + 1..] == t2;
  }

  lemma PartitionAt(h: string, t: string, c: char)
    requires c !in h
    ensures Partition(h + [c] + t, c) == (h, true, t)
  {
    var r := Partition(h + [c] + t, c);
    assert c in h + [c] + t by { assert (h + [c] + t)[|h|] == c; }
    FirstSplitUnique(r.0, r.2, h, t, c);
  }

  /** `s.replace(from, to)` for single characters. */
  function Replace(s: string, from: char, to: char): (r: string)
    ensures |r| == |s|
    ensures forall i :: 0 <= i < |s| ==> r[i] == (if s[i] == from then to else s[i])
    ensures from != to ==> from !in r
    ensures from !in s ==> r == s
  {
    seq(|s|, i requires 0 <= i < |s| => if s[i] == from then to else s[i])
  }

  /** `s.replace(c, '')`: every `c` removed, everything else kept in order. */
  function RemoveAll(s: string, c: char): (r: string)
    ensures c !in r
    ensures |r| == |s| - Count(s, c)
  {
    if s == [] then ""
    else if s[0] == c then RemoveAll(s[1..], c)
    else [s[0]] + RemoveAll(s[1..], c)
  }

  /** Removal works piecewise: removing from a concatenation removes from
      each part. */
  lemma {:induction false} RemoveAllAppend(a: string, b: string, c: char)
    ensures RemoveAll(a + b, c) == RemoveAll(a, c) + RemoveAll(b, c)
  {
    if a == [] {
      assert a + b == b;
    } else {
      assert (a + b)[1..] == a[1..] + b;
      assert (a + b)[0] == a[0];
      RemoveAllAppend(a[1..], b, c);
      if a[0] != c {
        assert [a[0]] + (RemoveAll(a[1..], c) + RemoveAll(b, c)) == ([a[0]] + RemoveAll(a[1..], c)) + RemoveAll(b, c);
      }
    }
  }

  /** A single character is dropped exactly when it is the removed one. */
  lemma RemoveAllChar(x: char, c: char)
    ensures RemoveAll([x], c) == if x == c then [] else [x]
  {
  }

  lemma {:induction false} RemoveAllAbsent(s: string, c: char)
    requires c !in s
    ensures RemoveAll(s, c) == s
  {
    if s != [] {
      RemoveAllAbsent(s[1..], c);
      assert [s[0]] + s[1..] == s;
    }
  }

  /** `s.split(sep)` with an explicit one-character separator: never empty,
      empty pieces kept (`"".split(",") == [""]`). */
  function Split(s: string, sep: char): (r: seq<string>)
    ensures |r| == Count(s, sep) + 1
    ensures forall i :: 0 <= i < |r| ==> sep !in r[i]
  {
    if s == [] then [""]
    else
      var rest := Split(s[1..], sep);
      if s[0] == sep then [""] + rest
      else [[s[0]] + rest[0]] + rest[1..]
  }

  /** A string without the separator is one piece. */
  lemma {:induction false} SplitWhole(s: string, sep: char)
    requires sep !in s
    ensures Split(s, sep) == [s]
  {
    if s != [] {
      SplitWhole(s[1..], sep);
      assert [s[0]] + s[1..] == s;
    }
  }

  /** Splitting peels off the text before the first separator as the first
      piece. */
  lemma {:induction false} SplitAt(h: string, t: string, sep: char)
    requires sep !in h
    ensures Split(h + [sep] + t, sep) == [h] + Split(t, sep)
  {
    if h == [] {
      assert h + [sep] + t == [sep] + t;
      assert ([sep] + t)[1..] == t;
    } else {
      SplitAt(h[1..], t, sep);
      var s := h + [sep] + t;
      assert s[1..] == h[1..] + [sep] + t;
      assert [h[0]] + h[1..] == h;
    }
  }

  /** `sep.join(pieces)`. */
  function Join(pieces: seq<string>, sep: char): string
  {
    if |pieces| <= 1 then (if pieces == [] then "" else pieces[0])
    else pieces[0] + [sep] + Join(pieces[1..], sep)
  }

  /** Splitting loses nothing: joining the pieces gives the string back. */
  lemma {:induction false} JoinSplit(s: string, sep: char)
    ensures Join(Split(s, sep), sep) == s
  {
    if s != [] {
      var rest := Split(s[1..], sep);
      JoinSplit(s[1..], sep);
      if s[0] == sep {
        assert Split(s, sep) == [""] + rest;
        assert ([""] + rest)[1..] == rest;
      } else {
        var r := Split(s, sep);
        assert r == [[s[0]] + rest[0]] + rest[1..];
        if |rest| == 1 {
          assert Join(rest, sep) == rest[0];
        } else {
          assert r[1..] == rest[1..];
          assert Join(rest, sep) == rest[0] + [sep] + Join(rest[1..], sep);
        }
      }
      assert s == [s[0]] + s[1..];
    }
  }

  function LowerChar(ch: char): char
  {
    if 'A' <= ch <= 'Z' then (ch as int + 32) as char else ch
  }

  /** `s.lower()`. */
  function Lower(s: string): (r: string)
    ensures |r| == |s|
    ensures forall i :: 0 <= i < |s| ==> r[i] == LowerChar(s[i])
  {
    seq(|s|, i requires 0 <= i < |s| => LowerChar(s[i]))
  }

  predicate HasNoUpper(s: string)
  {
    forall i :: 0 <= i < |s| ==> !('A' <= s[i] <= 'Z')
  }

  lemma LowerOfLower(s: string)
    ensures HasNoUpper(Lower(s))
    ensures Lower(Lower(s)) == Lower(s)
  {
  }

  lemma LowerUnchanged(s: string)
    requires HasNoUpper(s)
    ensures Lower(s) == s
  {
  }

  predicate StartsWith(s: string, prefix: string)
  {
    |prefix| <= |s| && s[..|prefix|] == prefix
  }

  predicate EndsWith(s: string, suffix: string)
  {
    |suffix| <= |s| && s[|s| - |suffix|..] == suffix
  }

  predicate IsDigitChar(ch: char)
  {
    '0' <= ch <= '9'
  }

  /** `s.isdigit()`: false for the empty string. */
  predicate IsDigits(s: string)
  {
    |s| > 0 && forall i :: 0 <= i < |s| ==> IsDigitChar(s[i])
  }

  /** `int(s)` for a string of decimal digits (leading zeros allowed). */
  function DigitsValue(s: string): nat
    requires forall i :: 0 <= i < |s| ==> IsDigitChar(s[i])
  {
    if s == [] then 0
    else
      assert IsDigitChar(s[|s| - 1]);
      DigitsValue(s[..|s| - 1]) * 10 + (s[|s| - 1] as int - '0' as int)
  }

  /** `str(n)` for a natural number: its shortest decimal spelling. */
  function Decimal(n: nat): (r: string)
  {
    if n < 10 then [('0' as int + n) as char]
    else Decimal(n / 10) + [('0' as int + n % 10) as char]
  }

  /** `int(str(n)) == n`, and `str(n).isdigit()`. */
  lemma {:induction false} DecimalRoundTrip(n: nat)
    ensures IsDigits(Decimal(n))
    ensures DigitsValue(Decimal(n)) == n
  {
    var d := Decimal(n);
    if n >= 10 {
      DecimalRoundTrip(n / 10);
      assert d[..|d| - 1] == Decimal(n / 10);
    }
  }

  /** `xs.index(x)`: the position of the first `x`, or None where Python
      raises ValueError. */
  function IndexOf(xs: seq<string>, x: string): (r: Option<nat>)
    ensures r.Some? <==> x in xs
    ensures r.Some? ==> r.value < |xs| && xs[r.value] == x && x !in xs[..r.value]
  {
    if xs == [] then None
    else if xs[0] == x then Some(0)
    else
      match IndexOf(xs[1..], x)
      case None => None
      case Some(k) =>
        assert xs[..k + 1] == [xs[0]] + xs[1..][..k];
        Some(k + 1)
  }
}

=== FILE: spindle_actions.dfy ===
/** The spindle actions: the enable check shared by all of them, the speed a
    start command uses, the commands each action issues, and the brake. */
module SpindleActions {
  import opened Py
  import opened Controller
  import opened Widgets

  const SpindleOffRefusal: string := "Can't run spindle until machine it ON"
  const SpindleAutoRefusal: string := "Machine must be in Manuel mode"

  // ---------------------------------------------------------------------
  // Enable check
  // ---------------------------------------------------------------------

  /** `_spindle_ok`: the spindle can be run when the machine is on and not in
      auto mode; a machine that is not on is reported before the mode. */
  function SpindleVerdict(s: Status): (v: Verdict)
    ensures v.Consistent()
    ensures v.ok <==> s.taskState == StateOn && s.taskMode != ModeAuto
    ensures s.taskState != StateOn ==> v.msg == SpindleOffRefusal
    ensures s.taskState == StateOn && s.taskMode == ModeAuto ==> v.msg == SpindleAutoRefusal
  {
    if s.taskState != StateOn then Verdict(false, SpindleOffRefusal)
    else if s.taskMode == ModeAuto then Verdict(false, SpindleAutoRefusal)
    else Verdict(true, "")
  }

  /** The check reads only the task state and mode. */
  lemma {:induction false} SpindleVerdictReadsStateAndMode(s: Status, t: Status)
    requires s.taskState == t.taskState && s.taskMode == t.taskMode
    ensures SpindleVerdict(s) == SpindleVerdict(t)
  {
  }

  /** `_spindle_ok(widget)`: records the message on the check, and when a
      widget is given enables it exactly when the check passed and shows the
      message as both tips. */
  method SpindleOk(check: OkCheck, s: Status, widget: Widget?) returns (ok: bool)
    modifies check, widget
    ensures ok == SpindleVerdict(s).ok && check.msg == SpindleVerdict(s).msg
    ensures ok <==> check.msg == ""
    ensures widget != null ==> widget.enabled == ok && widget.statusTip == check.msg && widget.toolTip == check.msg
    ensures widget != null ==> widget.checkable == old(widget.checkable) && widget.checked == old(widget.checked)
    ensures widget != null ==> widget.slots == old(widget.slots)
  {
    ok := check.Report(SpindleVerdict(s), widget);
  }

  // ---------------------------------------------------------------------
  // Speed
  // ---------------------------------------------------------------------

  function Abs(x: real): real
  {
    if x < 0.0 then -x else x
  }

  /** The speed before the override: the commanded speed, or, when that is
      0, the magnitude of the configured default speed. */
  function RawSpeed(s: Status, defaultSpeed: real): (r: real)
    ensures s.speedSetting != 0.0 ==> r == s.speedSetting
    ensures s.speedSetting == 0.0 ==> r == Abs(defaultSpeed) && r >= 0.0
  {
    if s.speedSetting == 0.0 then Abs(defaultSpeed) else s.speedSetting
  }

  /** `getSpeed`: the raw speed scaled by the spindle override factor, with
      no clamping to any minimum or maximum. */
  function GetSpeed(s: Status, defaultSpeed: real): (r: real)
    ensures s.speedSetting != 0.0 ==> r == s.speedSetting * s.spindlerate
    ensures s.speedSetting == 0.0 ==> r == Abs(defaultSpeed) * s.spindlerate
  {
    RawSpeed(s, defaultSpeed) * s.spindlerate
  }

  /** The default applies only when the commanded speed is 0, it is never
      negative, and a non-negative override keeps the result non-negative. */
  lemma {:induction false} DefaultSpeedNonNegative(s: Status, defaultSpeed: real)
    requires s.speedSetting == 0.0 && s.spindlerate >= 0.0
    ensures GetSpeed(s, defaultSpeed) >= 0.0
  {
    var raw := RawSpeed(s, defaultSpeed);
    assert raw >= 0.0;
    assert raw * s.spindlerate >= 0.0 * s.spindlerate;
  }

  /** With the override at 100 %, any commanded speed, however large, is
      used as is: nothing clamps it. */
  lemma {:induction false} SpeedNotClamped(s: Status, defaultSpeed: real)
    requires s.spindlerate == 1.0 && s.speedSetting != 0.0
    ensures GetSpeed(s, defaultSpeed) == s.speedSetting
  {
    assert RawSpeed(s, defaultSpeed) == s.speedSetting;
  }

  // ---------------------------------------------------------------------
  // Commands
  // ---------------------------------------------------------------------

  datatype SpindleAction = Forward | Reverse | Off | Faster | Slower | Constant

  /** The command a spindle action issues. `forward` and `reverse` take an
      optional speed and use `getSpeed()` when none is given; the others
      take no speed. */
  function SpindleCommand(a: SpindleAction, speed: Option<real>, s: Status, defaultSpeed: real): (c: Command)
    ensures c.Spindle?
    ensures a.Forward? <==> c.op == SpindleForward
    ensures a.Reverse? <==> c.op == SpindleReverse
    ensures a.Off? <==> c.op == SpindleOff
    ensures a.Faster? <==> c.op == SpindleIncrease
    ensures a.Slower? <==> c.op == SpindleDecrease
    ensures a.Constant? <==> c.op == SpindleConstant
    ensures (a.Forward? || a.Reverse?) && speed.Some? ==> c.speed == speed
    ensures (a.Forward? || a.Reverse?) && speed.None? ==> c.speed == Some(GetSpeed(s, defaultSpeed))
    ensures !(a.Forward? || a.Reverse?) ==> c.speed.None?
  {
    var chosen := match speed case Some(v) => v case None => GetSpeed(s, defaultSpeed);
    match a
    case Forward => Spindle(SpindleForward, Some(chosen))
    case Reverse => Spindle(SpindleReverse, Some(chosen))
    case Off => Spindle(SpindleOff, None)
    case Faster => Spindle(SpindleIncrease, None)
    case Slower => Spindle(SpindleDecrease, None)
    case Constant => Spindle(SpindleConstant, None)
  }

  /** Forward and reverse differ only in direction. */
  lemma ForwardReverseSymmetric(speed: Option<real>, s: Status, defaultSpeed: real)
    ensures SpindleCommand(Forward, speed, s, defaultSpeed).speed == SpindleCommand(Reverse, speed, s, defaultSpeed).speed
  {
  }

  // ---------------------------------------------------------------------
  // Brake
  // ---------------------------------------------------------------------

  /** `brake.is_on`. */
  predicate BrakeIsOn(s: Status)
  {
    s.spindleBrake == BrakeEngage
  }

  /** `brake.on` and `brake.off`. */
  function BrakeCommand(engage: bool): (c: Command)
    ensures c.Brake? && (c.brake == BrakeEngage <==> engage)
  {
    if engage then Brake(BrakeEngage) else Brake(BrakeRelease)
  }

  /** `brake.toggle` as written: it asks `brake.it_on`, which the brake
      group does not define, so every call raises AttributeError before any
      command is issued. */
  function BrakeToggleAsWritten(s: Status): (r: Run)
  {
    Run([], Some(AttributeError("it_on")))
  }

  lemma BrakeToggleAsWrittenRaises(s: Status)
    ensures BrakeToggleAsWritten(s).raised == Some(AttributeError("it_on"))
    ensures BrakeToggleAsWritten(s).commands == []
  {
  }

  /** `brake.toggle` as intended, asking `brake.is_on`: release an engaged
      brake, engage a released one. */
  function BrakeToggle(s: Status): (r: Run)
    ensures r.raised.None? && |r.commands| == 1 && r.commands[0].Brake?
    ensures r.commands[0].brake == BrakeEngage <==> !BrakeIsOn(s)
  {
    Run([BrakeCommand(!BrakeIsOn(s))], None)
  }

  /** Applying the toggle's command leaves the brake in the other state. */
  lemma {:induction false} BrakeToggleFlips(s: Status)
    ensures BrakeIsOn(s.(spindleBrake := BrakeToggle(s).commands[0].brake)) != BrakeIsOn(s)
  {
  }
}

=== FILE: widgets.dfy ===
/** The widget state the action layer drives, and the `(ok, msg)` verdicts of
    the `_*_ok` enable checks. */
module Widgets {
  import opened Py

  /** The result of an enable check: whether the action may run now, and the
      reason shown to the user when it may not. */
  datatype Verdict = Verdict(ok: bool, msg: string)
  {
    /** Every check keeps this: a message exactly when the action is refused. */
    predicate Consistent()
    {
      ok <==> msg == ""
    }
  }

  /** The signals a binding connects to. */
  datatype Signal = Clicked | Triggered | Pressed | Released

  /** A connected handler: calling the action at `path` with `args`, and, for
      a jog release, with the keyword argument `speed=0` added. */
  datatype Slot = Slot(signal: Signal, path: seq<string>, args: seq<Arg>, speedZero: bool)

  /** A button, check box or menu action, reduced to the properties the
      action layer sets. */
  class Widget {
    const isQAction: bool
    var enabled: bool
    var checkable: bool
    var checked: bool
    var statusTip: string
    var toolTip: string
    var slots: seq<Slot>

    constructor (isQAction: bool)
      ensures this.isQAction == isQAction
      ensures enabled && !checkable && !checked
      ensures statusTip == "" && toolTip == "" && slots == []
    {
      this.isQAction := isQAction;
      enabled := true;
      checkable := false;
      checked := false;
      statusTip := "";
      toolTip := "";
      slots := [];
    }

    /** `setEnabled(ok)`, `setStatusTip(msg)`, `setToolTip(msg)`. */
    method Show(v: Verdict)
      modifies this
      ensures enabled == v.ok && statusTip == v.msg && toolTip == v.msg
      ensures checkable == old(checkable) && checked == old(checked) && slots == old(slots)
    {
      enabled := v.ok;
      statusTip := v.msg;
      toolTip := v.msg;
    }

    /** `setCheckable(True)`. */
    method MakeCheckable()
      modifies this
      ensures checkable
      ensures enabled == old(enabled) && checked == old(checked)
      ensures statusTip == old(statusTip) && toolTip == old(toolTip) && slots == old(slots)
    {
      checkable := true;
    }

    /** `setChecked(value)`. */
    method SetChecked(value: bool)
      modifies this
      ensures checked == value
      ensures enabled == old(enabled) && checkable == old(checkable)
      ensures statusTip == old(statusTip) && toolTip == old(toolTip) && slots == old(slots)
    {
      checked := value;
    }

    /** `signal.connect(handler)`: handlers accumulate in connection order. */
    method Connect(slot: Slot)
      modifies this
      ensures slots == old(slots) + [slot]
      ensures enabled == old(enabled) && checkable == old(checkable) && checked == old(checked)
      ensures statusTip == old(statusTip) && toolTip == old(toolTip)
    {
      slots := slots + [slot];
    }
  }

  /** One `_*_ok` function together with its `.msg` attribute, which every
      call overwrites. */
  class OkCheck {
    var msg: string

    constructor ()
      ensures msg == ""
    {
      msg := "";
    }

    /** The tail shared by the checks that report to a widget: record the
        message, and when a widget is given, enable it exactly when the check
        passed and show the message as both tips. */
    method Report(v: Verdict, widget: Widget?) returns (ok: bool)
      modifies this, widget
      ensures ok == v.ok && msg == v.msg
      ensures widget != null ==> widget.enabled == v.ok && widget.statusTip == v.msg && widget.toolTip == v.msg
      ensures widget != null ==> widget.checkable == old(widget.checkable) && widget.checked == old(widget.checked)
      ensures widget != null ==> widget.slots == old(widget.slots)
    {
      msg := v.msg;
      if widget != null {
        widget.Show(v);
      }
      ok := v.ok;
    }
  }
}
